=== FILE: README.md ===
# evtrack, modelled in Dafny

evtrack records what a visitor does on a web page. The page loads
`load.js`. That script pulls in `tracklib.js` and `trackui.js`. The
`trackui.js` session hooks mouse, touch, key and window events and writes
one log line per recorded event. It sends the buffered lines to a
receiver (`save.php`), which keeps one CSV log per visitor session.

This project models the pure logic of those four files and proves what
they promise. Each part is modelled as it is written, including where it
does not match what its comments or the other files expect.

| file | module | models |
|---|---|---|
| `wrappers.dfy` | `Wrappers` | `Option` and `Result` |
| `text.dfy` | `Text` | string builtins: `Array.join` / `String.split`, `str_replace`, decimal printing, JavaScript `parseInt`, PHP `trim` and string truthiness, `toLowerCase` on ASCII |
| `dom.dfy` | `Dom` | an immutable DOM tree; nodes are addressed by their path of child indices |
| `xpath.dfy` | `XPath` | `TrackLib.XPath.getXPath` and its helpers |
| `tracklib.dfy` | `TrackLib` | `Events.fix`, `Util.serializeAttrs`, `Util.sameDomain`, `Dimension.getPageSize` |
| `trackui.dfy` | `TrackUI` | the recording session as a state machine |
| `receiver.dfy` | `Receiver` | `save.php` over a file map |
| `loader.dfy` | `Loader` | `load.js`: the library URLs and the load order |
| `protocol.dfy` | `Protocol` | one request followed from the client's body through the receiver's parser |

## How the code behaves where the comments suggest otherwise

- **Id anchors.** An id-anchored path starts with two slashes: `//*[@id='v']`.
  - The anchor step is rendered as `/*[@id='v']` (js/src/tracklib.js:55).
  - `getXPath` then puts another `/` in front of the joined steps (js/src/tracklib.js:78).
- **Batch separator.**
  - The client sends its buffered lines as a JavaScript array converted to a string, which joins them with `,` (js/src/trackui.js:91, 124).
  - The receiver splits on `|||` (save.php:16, 61).
  - So a whole batch lands on one row of the log (`Protocol.BatchIsOneRow`).
- **Column count.**
  - The log header names eight columns (save.php:74).
  - Each recorded line has seven fields (js/src/trackui.js:184, 238-241).
- **Empty batches.**
  - `appendData` posts even when the buffer is empty (js/src/trackui.js:122-133).
  - The receiver drops such a batch without touching a file (save.php:97).
- **Uid adoption.** `setUserId` overwrites the uid with whatever `parseInt` makes of every answer (js/src/trackui.js:110).
- **Cookies field.** The init body's `cookies` field reads a property that the document-size object lacks, so it is always the text `undefined` (js/src/trackui.js:82, 90).
- **Attribute objects.**
  - `serializeAttrs` gives an element without attributes the entry `{tag: {}}`, not `{}` (js/src/tracklib.js:423-424).
  - Only targets without an attribute collection give `{}`: the window, the document and text nodes.
- **Raw-body values.**
  - The raw-body parser keeps only the text between the first and second `=` of a piece (save.php:41).
  - That loop runs only when PHP exposes the raw body in `$HTTP_RAW_POST_DATA` (save.php:37), which PHP up to 5.6 does under `always_populate_raw_post_data`.
  - On that branch a value holding `=` (an id-anchored path, or attributes) is cut short (`Protocol.ValueCutAtEquals`). PHP's own parser of the `application/x-www-form-urlencoded` body the client sends (js/src/tracklib.js:205) keeps everything after the first `=`.
- **Values are mostly not escaped.** Only the page URL passes through `escape()` (js/src/trackui.js:83; here the escaped URL is an input). Every other value is posted raw, so the form round trip (`Protocol.FormRoundTrip`) holds only for values without `&`, `=` and `%`.
- **Stale metadata files.** The id loop looks only for a free `.csv` name (save.php:70). A stale `.xml` file with the chosen id is overwritten (`Receiver.InitReplacesStaleXml`).

## Model

| member | source | states |
|---|---|---|
| XPath.Select | js/src/tracklib.js:102-124 | the children kept by getChildNodesWithTagName / getChildTextNodes are exactly the matching ones, in document order |
| XPath.SelectEmptyTag | js/src/tracklib.js:105 | a child needs a truthy tagName to be kept, so an empty tag name selects nothing |
| XPath.PositionOfMatch | js/src/tracklib.js:84-89 | the index loop gives null for a single match, else one more than the number of matching siblings before the node |
| XPath.NodeIndexSpec | js/src/tracklib.js:81-90 | getNodeIndex: null for a non-element or a node without parent, null when it is the only child with its tag, otherwise its 1-based position among those; it throws only for an empty tag name |
| XPath.TextNodeIndexSpec | js/src/tracklib.js:92-100 | getTextNodeIndex: null for the only text child, otherwise the 1-based position among text siblings; a missing parent throws |
| XPath.NodePath | js/src/tracklib.js:126-135 | the walked nodes are the target's ancestors-or-self, outermost first, ending at the target; all are elements or text; the first one has an id or sits under a non-element, non-text node; no later one has an id |
| XPath.NodePathOfDocument | js/src/tracklib.js:126-135 | inside a document the walk never reaches a missing parent, so it never throws |
| XPath.StepForDescribes | js/src/tracklib.js:53-75 | an element or text node gives exactly one step, and that step describes it (anchor, tag with index, or text() with index) |
| XPath.StepsForDescribe | js/src/tracklib.js:51-76 | the loop gives one describing step per walked node, in order |
| XPath.LocationSteps | js/src/tracklib.js:50-76 | one step per walked node, in order: an id anchor only for the first node when it has an id, otherwise the tag (lower-cased for HTML documents) with getNodeIndex's index, or text() with getTextNodeIndex's index |
| XPath.GetXPath | js/src/tracklib.js:48-79 | the result exists exactly when every step could be computed, and it is then "/" followed by the rendered location steps joined with "/" (so it starts with "/") |
| XPath.StepForOk | js/src/tracklib.js:81-124 | in a well-formed tree neither index function throws |
| XPath.GetXPathOk | js/src/tracklib.js:48-135 | getXPath never throws for a node of a well-formed document |
| XPath.AnchoredXPath | js/src/tracklib.js:54-78 | when the first walked node has id v, the result begins with //*[@id='v'] |
| XPath.FirstStepAnchored | js/src/tracklib.js:54-55 | an id on the first walked node makes the first step the anchor for that id |
| XPath.OnlyFirstStepAnchored | js/src/tracklib.js:54 | no step after the first is an anchor |
| XPath.XPathOfIdTarget | js/src/tracklib.js:54-78 | a target with an id is named by //*[@id='v'] alone |
| XPath.XPathEmptyPath | js/src/tracklib.js:50-78 | in a well-formed tree the result is exactly "/" iff the walk found no node, e.g. for the document itself |
| TrackLib.Fix | js/src/tracklib.js:269-281 | the fixed event always has a target and it is never a text node; metaKey defaults to ctrlKey; id is the identifier when truthy, else 0; type, touches, coordinates, srcElement, identifier and ctrlKey are unchanged |
| TrackLib.FixKeepsTarget | js/src/tracklib.js:272-274 | a target that is not a text node is kept as the event gave it |
| TrackLib.FixTextTarget | js/src/tracklib.js:274 | a text target is replaced by the node that contains it (its parent, of which it is a child) |
| TrackLib.FixSrcElement | js/src/tracklib.js:272 | without a target, a non-text srcElement becomes the target |
| TrackLib.FixNoTarget | js/src/tracklib.js:272-273 | without a target or srcElement, the event is taken to be on the document |
| TrackLib.FixIdempotent | js/src/tracklib.js:269-281 | fixing a fixed event changes nothing |
| TrackLib.TextParent | js/src/tracklib.js:274 | a text target always has a parent, and that parent is not text |
| TrackLib.AttrMapSpec | js/src/tracklib.js:425-430 | the attribute object holds exactly the names of specified attributes, each with the value of the last such attribute |
| TrackLib.SerializeAttrs | js/src/tracklib.js:421-434 | {} unless the target is an element; for an element, one entry under its name holding exactly its specified attributes |
| TrackLib.AttrMapUnique | js/src/tracklib.js:425-430 | with unique attribute names every specified attribute appears with its own value |
| TrackLib.SameDomain | js/src/tracklib.js:352-362 | true for fewer than two URLs, otherwise whether the last two URLs have the same domain |
| TrackLib.PageSize | js/src/tracklib.js:332-341 | each dimension is the larger of the viewport's and the document's |
| TrackUI.DefaultThrottle | js/src/trackui.js:21-177 | with the default pollingMs of 150, kept unless record's config overrides it, an event is recorded exactly when 150 ms have passed since the last recorded one: 149 ms later it is dropped, 150 ms later kept |
| TrackUI.Record | js/src/trackui.js:47-51 | record keeps the set of settings; a setting takes the config value iff the config has it and it is not null |
| TrackUI.RecordIdempotent | js/src/trackui.js:49-51 | merging the same config twice equals merging it once |
| TrackUI.RecordIgnoresUnknown | js/src/trackui.js:49 | a config key that is not a setting has no effect |
| TrackUI.RecordNullKeeps | js/src/trackui.js:49 | a null config value never replaces a setting |
| TrackUI.FreshSession | js/src/trackui.js:14-254 | before any init answer the uid is 0, so leaving the page sends a synchronous init to the default server with empty info and the default task and layout; since the clock starts at the load time, no event in the first 150 ms is recorded |
| TrackUI.ShouldRecord | js/src/trackui.js:175-178 | with a positive pollingMs an event is recorded iff at least pollingMs passed since the last recorded one; otherwise always |
| TrackUI.NoThrottle | js/src/trackui.js:176 | pollingMs 0 records every event |
| TrackUI.Clamp | js/src/trackui.js:222-223 | a falsy or negative coordinate becomes 0, a positive one stays |
| TrackUI.MousePos | js/src/trackui.js:210-226 | coordinates are never negative; page coordinates when either is non-zero, else client coordinates plus both scroll offsets, else the origin |
| TrackUI.EventHandler | js/src/trackui.js:172-187 | a throttled event changes nothing; a throw changes nothing; a recorded event sets the time to now and appends exactly one line, keeping the earlier ones |
| TrackUI.EventHandlerLine | js/src/trackui.js:181-187 | the appended line is id, time, x, y, type, path and attributes of the fixed event joined by spaces |
| TrackUI.WindowEvent | js/src/trackui.js:182-184 | a window event is logged with path "/" and an empty attribute object |
| TrackUI.EntryFields | js/src/trackui.js:238-241 | a line splits on spaces back into its seven fields when type, path and attributes have no space |
| TrackUI.SharedClock | js/src/trackui.js:172-187 | after a recorded event at t1 any event at t2, of any kind, is recorded iff t2 - t1 reaches pollingMs |
| TrackUI.TouchHandler | js/src/trackui.js:193-202 | no touch list records nothing; otherwise each changed touch goes through eventHandler in order with the parent's type, as the fold states |
| TrackUI.TouchFoldGrows | js/src/trackui.js:197-201 | a touch event adds at most one line per changed touch and keeps the earlier lines |
| TrackUI.TouchFoldAll | js/src/trackui.js:197-201 | with pollingMs 0 in a well-formed page every changed touch adds exactly one line |
| TrackUI.SameInstantTouches | js/src/trackui.js:193-202 | with a positive pollingMs two touches read at the same instant record at most one line |
| Protocol.FormSplit | js/src/trackui.js:83-94 | a body whose keys and values hold no & is cut at & back into exactly its key=value pieces, one per field in the order written |
| TrackUI.EmptyBatchSent | js/src/trackui.js:122-133 | with an empty buffer the body is still sent, as uid=…&info=&action=append |
| TrackUI.AdoptUid | js/src/trackui.js:109-116 | an answer naming a positive id is adopted and the next flush appends under it |
| TrackUI.RejectedUid | js/src/trackui.js:109-116 | an answer "0" or without digits leaves the uid falsy, so the next flush initialises again |
| TrackUI.Flush | js/src/trackui.js:247-254 | flush sends a synchronous append iff the uid is truthy, otherwise a synchronous init, and empties the buffer |
| Text.ParseIntOfIntText | js/src/trackui.js:110 | parseInt reads back every printed integer, the id the receiver echoes included |
| Text.ParseIntNoDigits | js/src/trackui.js:110 | parseInt of a text without digits is NaN |
| Receiver.CsvNameInjective | save.php:68-75 | different ids name different logs |
| Receiver.CsvNotXml | save.php:75-89 | a log name is never a metadata name |
| Receiver.RawUrlDecode | save.php:42 | decoding never lengthens the text and leaves text without % unchanged |
| Receiver.DecodeEncoded | save.php:42 | decoding undoes percent-encoding: every byte string written as %XX escapes is read back exactly |
| Receiver.ParsePiecesKeys | save.php:38-44 | after the raw loop a field exists iff PHP had it or some non-empty piece names it; fields no piece names keep their values |
| Receiver.LastPieceWins | save.php:38-44 | the last non-empty piece with a key decides that key's value |
| Receiver.InfoData | save.php:59-61 | the lines end with a line end; missing info gives just the line end; info without "|" is kept as it is |
| Receiver.FreeFid | save.php:68-70 | the chosen id is at least the start, its log did not exist, and every id between had a log |
| Receiver.Handle | save.php:25-101 | OPTIONS and a missing action change nothing; only init answers with a non-empty body |
| Receiver.HandleInit | save.php:66-92 | init creates the log of a fresh id holding the header and the lines, writes the metadata beside it, answers the id and changes no other file |
| Receiver.InitIdIsFirstFree | save.php:68-70 | the answered id is the first one at or after the start whose log was free |
| Receiver.InitAnswer | save.php:66-92 | init answers the id the loop settles on, and that id's log holds the header followed by the lines |
| Receiver.HandleAppend | save.php:94-99 | append: when the trimmed lines are truthy in PHP, logs/uid.csv (created if missing) afterwards holds its old content followed by exactly the lines, and no other file changes or appears; otherwise nothing changes; the answer is empty |
| Receiver.EmptyAppendDropped | save.php:94-99 | an append without lines changes no file |
| Receiver.HandleOther | save.php:66-101 | any other action changes nothing |
| Receiver.HandleKeepsOthers | save.php:64-101 | no request removes a file, and no file other than the uid's log or a metadata file changes |
| Receiver.InitReplacesStaleXml | save.php:68-89 | a metadata file already under the chosen id is overwritten |
| Loader.DirParts | js/src/load.js:30-31 | the directory segments are the src's "/"-segments in order, without the last |
| Loader.NoSlash | js/src/load.js:30-35 | a src without "/" gives the empty path and the .min.js suffix |
| Loader.PathAndName | js/src/load.js:30-33 | the src is the path, a slash and the file name |
| Loader.ExtFromDirectory | js/src/load.js:35 | the suffix is .js iff the src has a segment before the file name and that segment is exactly src, .min.js otherwise |
| Loader.ExtOfLayout | js/src/load.js:30-35 | a loader at pre + d + "/" + name reads its libraries from pre + d, unminified exactly when d is src |
| Loader.SameDirectory | js/src/load.js:30-39 | for a loader at dir + "/" + name the libraries are dir + "/tracklib" + ext and dir + "/trackui" + ext: they sit next to the loader |
| Loader.LastRecordCall | js/src/load.js:14-16 | the options the cache keeps are those of a record call with no record call after it, and there are none only when there was no call |
| Loader.RunInvariant | js/src/load.js:12-46 | over any events trackui is inserted only after tracklib loaded; until trackui loads nothing is recorded and the cache holds the latest options |
| Loader.ReplayLatest | js/src/load.js:41-43 | when trackui loads the real record runs once with the latest options; without any the missing closure throws |
| Loader.ReadyRecords | js/src/load.js:38-46 | once trackui has loaded, record calls reach the real record |
| Protocol.FormRoundTrip | save.php:37-45 | every field the client writes is read back by the receiver when keys hold no & or =, values no &, no later field repeats its key, and its value has no = or % |
| Protocol.InitBodyRoundTrip | save.php:37-45 | an init body from initNewData reaches the receiver with action init and the client's buffered lines as info |
| Protocol.InitSessionRoundTrip | save.php:66-92 | after initNewData the receiver's new log holds the header and the client's lines, and the client adopts exactly the answered id, starting the appends when it is positive |
| Protocol.AppendBodyRoundTrip | save.php:37-45 | an append body gives the receiver the client's uid and action |
| Protocol.SessionRoundTrip | save.php:92-98 | after adopting id fid, the flush appends to logs/fid.csv, the log init created |
| Protocol.EmptyBatchRoundTrip | save.php:94-99 | an empty batch is posted and then dropped without touching any file |
| Protocol.ValueCutAtEquals | save.php:41 | a value containing = is cut at its first = |
| Protocol.BatchIsOneRow | save.php:59-61 | comma-joined lines arrive as one row |
| Protocol.BatchOneLineEnd | save.php:59-61 | a whole batch adds exactly one line end to the log |
| Protocol.SeparatedBatchRows | save.php:59-61 | lines joined with "|||" would each become a row |
| Protocol.HeaderHasEightColumns | save.php:74 | the header splits into eight column names |
| Protocol.EntryHasSevenFields | js/src/trackui.js:184 | a recorded line splits into seven fields |

## Left out

- Network transport is not modelled: `XHR.createXMLHTTPObject`, `sendAjaxRequest`, `TrackUI.send`, XDomainRequest and CORS. Outgoing requests are returned values.
- `sameDomain` does not call the browser's host-name lookup. `getDomain` is a function parameter.
- Host XPath evaluation is not modelled: `queryXPath`, `getXPathNodes` and `getNodeValues` drive a foreign engine.
- Listener plumbing is not modelled: `Events.add`/`remove`, `onDOMload`, `Util.serialize` and the listener registration in `record`.
- `mouseHandler`, `keyHandler` and `winHandler` only forward to `eventHandler`. `TrackUI.EventHandler` stands for all three.
- `Events.fix` does not model the `window.event` fallback for a missing event object. The model always has an event.
- Timers and the clock are not modelled: `setTimeout`, `setInterval` and `Date`. Times are parameters, and the timer ticks are the caller's calls of `InitNewData`/`AppendData`.
- `getWindowSize` and `getDocumentSize` read browser globals. Their results are inputs, as are `screen`, `window.location` and `escape()`.
- JSON.stringify is a function parameter. The attribute object is modelled as a map.
- save.php's CORS headers are not modelled. Nor are the JSON-beacon branch (`getallheaders`, `json_decode`), magic-quotes stripping, `mkdir`, the XML metadata text (an input) and real file I/O (a map from name to content).
- PHP's own form parser is not modelled. Its result is the request's `form` map. When PHP also exposes the raw body, the raw-body loop is applied on top of it; otherwise the request's raw body is `None` and the map is used as is.
- Protocol.Posted: every round-trip lemma in `Protocol` assumes the `$HTTP_RAW_POST_DATA` branch of save.php runs: the `form` map is empty and the raw body is present. PHP's own parsing of the same body, which is what a receiver without that setting sees, is not modelled, so the lemmas say nothing about that configuration.
- PHP_EOL is taken to be "\n".
- Receiver.HandleKeepsOthers: file names are compared as plain strings and never normalised. save.php builds the log path from the client's `uid` without checking it (save.php:98), so a uid holding `/` or `..` (for example `../logs/7`) reaches another `.csv` file on a real file system. This lemma and Receiver.HandleAppend's "every other file is unchanged" hold only for uids without `/`. The client itself only ever sends the digits of a parsed id.
- Receiver.HandleAppend: "no other file changes or appears" is stated over unnormalised names, so it holds only for uids without `/`, for the reason given in the line above.
- Receiver.HandleInit: each request is handled as one atomic step. save.php checks for a free name (save.php:70) and writes the log later (save.php:75), so two init requests handled at the same time with the same start id can both pick the same id: the second overwrites the first log and both clients get the same uid. The freshness of the chosen id (HandleInit, Receiver.FreeFid, Receiver.InitIdIsFirstFree) holds only when requests are handled one at a time.
- The timestamp-derived start id is an input.
- Script element creation and DOM insertion in load.js are not modelled. Only the URLs and the order of the callbacks are.
- js/src/.eslintrc.js is not part of this model. It is lint configuration.
- TrackUI.ShouldRecord: a `pollingMs` setting that is not a number is treated as no throttle. JavaScript would coerce it, so a numeric string such as "200" would still throttle.
- TrackUI.MousePos: coordinates are integers. Fractional page coordinates and NaN from a non-numeric scroll offset are not modelled.
- TrackUI.InitNewData: the numbers in the body are printed as integers. JavaScript's printing of fractional or huge numbers is not modelled.
- Text.ParseIntOfIntText: integers are unbounded. JavaScript numbers lose precision beyond 2^53, and PHP's `(int)` and `$fid++` are 64-bit; neither limit is modelled.
- TrackLib.SerializeAttrs: the entry is keyed by the element's tag name, which is its `nodeName`. For an HTML element the browser gives it in upper case whatever the markup says; the model takes the tag name as stored in the tree.
- Receiver.RawUrlDecode: the decoded byte becomes one character. Multi-byte UTF-8 sequences are not reassembled.
- XPath.StepFor: tag names are lower-cased with `AsciiLower`, which maps only A-Z. JavaScript's `toLowerCase` also lower-cases non-ASCII letters, which HTML tag names do not contain in practice.
- TrackUI.Record: `record` called without a config object throws a TypeError at `config.hasOwnProperty`. The model always receives a config map, possibly empty, and does not represent that throw.
- TrackUI.MousePos: when `getMousePos` falls back to client coordinates it reads `document.body.scrollLeft`, which throws when `document.body` is null (js/src/trackui.js:218). The scroll offsets are inputs here, and that throw is not modelled.

=== FILE: dom.dfy ===
/**
 * An immutable DOM tree. A node is addressed by the sequence of child
 * indices that leads to it from the root, so a node's parent, its siblings
 * and its position among them are all determined by its address.
 */
module Dom {
  import opened Wrappers

  /** An attribute; `specified` is false for attributes the markup did not set. */
  datatype Attr = Attr(name: string, value: string, specified: bool)

  /**
   * Node kinds: the document (nodeType 9), elements (1), text (3), and every
   * other kind (comments, doctypes, fragments, ...) under `Other`.
   */
  datatype Node =
    | Document(children: seq<Node>)
    | Element(tagName: string, attrs: seq<Attr>, children: seq<Node>)
    | Text(data: string)
    | Other(children: seq<Node>)

  /** childNodes: text nodes have none. */
  function Kids(n: Node): seq<Node> {
    match n
    case Text(_) => []
    case Document(cs) => cs
    case Element(_, _, cs) => cs
    case Other(cs) => cs
  }

  /** A node address: child indices from the root, outermost first. */
  type Path = seq<nat>

  function Parent(p: Path): Path
    requires |p| > 0
  {
    p[..|p| - 1]
  }

  function Last(p: Path): nat
    requires |p| > 0
  {
    p[|p| - 1]
  }

  /** The node at `p`, if the address leads to one. */
  function Lookup(root: Node, p: Path): Option<Node>
    decreases |p|
  {
    if |p| == 0 then Some(root)
    else match Lookup(root, Parent(p))
      case None => None
      case Some(q) => if Last(p) < |Kids(q)| then Some(Kids(q)[Last(p)]) else None
  }

  predicate Valid(root: Node, p: Path) {
    Lookup(root, p).Some?
  }

  function At(root: Node, p: Path): Node
    requires Valid(root, p)
  {
    Lookup(root, p).value
  }

  /** The parent of a node is a node, and the node is its `Last(p)`-th child. */
  lemma ParentAt(root: Node, p: Path)
    requires Valid(root, p) && |p| > 0
    ensures Valid(root, Parent(p))
    ensures Last(p) < |Kids(At(root, Parent(p)))|
    ensures At(root, p) == Kids(At(root, Parent(p)))[Last(p)]
  {
  }

  /** Every ancestor address of a valid address is valid. */
  lemma {:induction false} PrefixValid(root: Node, p: Path, k: nat)
    requires Valid(root, p) && k <= |p|
    ensures Valid(root, p[..k])
    decreases |p| - k
  {
    if k < |p| {
      ParentAt(root, p);
      PrefixValid(root, Parent(p), k);
      assert Parent(p)[..k] == p[..k];
    } else {
      assert p[..k] == p;
    }
  }

  /** The value of the first attribute called `name` (getAttribute). */
  function GetAttr(attrs: seq<Attr>, name: string): (r: Option<string>)
    ensures r.Some? ==> exists i :: 0 <= i < |attrs| && attrs[i].name == name && attrs[i].value == r.value
    ensures r.None? ==> forall i :: 0 <= i < |attrs| ==> attrs[i].name != name
    decreases |attrs|
  {
    if |attrs| == 0 then None
    else if attrs[0].name == name then Some(attrs[0].value)
    else GetAttr(attrs[1..], name)
  }

  /** The `id` attribute of an element; other nodes have none. */
  function IdOf(n: Node): Option<string> {
    if n.Element? then GetAttr(n.attrs, "id") else None
  }

  /** hasAttribute("id") */
  predicate HasId(n: Node) {
    IdOf(n).Some?
  }

  /** Every element has a non-empty tag name, as every parsed document does. */
  predicate WellFormed(n: Node) {
    match n
    case Text(_) => true
    case Document(cs) => forall c :: c in cs ==> WellFormed(c)
    case Element(tag, _, cs) => tag != "" && forall c :: c in cs ==> WellFormed(c)
    case Other(cs) => forall c :: c in cs ==> WellFormed(c)
  }

  lemma {:induction false} WellFormedAt(root: Node, p: Path)
    requires WellFormed(root) && Valid(root, p)
    ensures WellFormed(At(root, p))
    decreases |p|
  {
    if |p| > 0 {
      ParentAt(root, p);
      WellFormedAt(root, Parent(p));
      var q := At(root, Parent(p));
      assert Kids(q)[Last(p)] in Kids(q);
    }
  }
}

=== FILE: loader.dfy ===
/**
 * The loader script (load.js): it derives the directory and the file
 * suffix of the two libraries from its own `src`, inserts tracklib, then
 * trackui once tracklib has loaded, and stands in for TrackUI.record until
 * then by remembering the options of the latest call.
 */
module Loader {
  import opened Wrappers
  import opened Text

  /* ----------------------------------------------------------------------
   * Paths
   * ---------------------------------------------------------------------- */

  /** The `/`-separated segments of the loader's src with the file name removed. */
  function DirParts(src: string): (r: seq<string>)
    ensures |r| == |Split(src, '/')| - 1
    ensures forall i :: 0 <= i < |r| ==> r[i] == Split(src, '/')[i]
  {
    var parts := Split(src, '/');
    parts[..|parts| - 1]
  }

  /** The directory of the loader: its src without the last segment. */
  function ScriptPath(src: string): string {
    Join("/", DirParts(src))
  }

  /** The sources are read from the `src` directory, the minified builds from anywhere else. */
  function ScriptExt(src: string): string {
    var dir := DirParts(src);
    if |dir| > 0 && dir[|dir| - 1] == "src" then ".js" else ".min.js"
  }

  function TracklibUrl(src: string): string {
    ScriptPath(src) + "/" + "tracklib" + ScriptExt(src)
  }

  function TrackuiUrl(src: string): string {
    ScriptPath(src) + "/" + "trackui" + ScriptExt(src)
  }

  /** A src without any `/` leaves an empty directory, and the minified suffix. */
  lemma NoSlash(src: string)
    requires '/' !in src
    ensures ScriptPath(src) == "" && ScriptExt(src) == ".min.js"
    ensures TracklibUrl(src) == "/tracklib.min.js" && TrackuiUrl(src) == "/trackui.min.js"
  {
    NoSlashSplit(src);
    assert "" + "/" + "tracklib" + ".min.js" == "/tracklib.min.js";
    assert "" + "/" + "trackui" + ".min.js" == "/trackui.min.js";
  }

  lemma {:induction false} NoSlashSplit(s: string)
    requires '/' !in s
    ensures Split(s, '/') == [s]
    decreases |s|
  {
    if |s| > 0 {
      assert '/' !in s[1..] by {
        assert forall i :: 0 <= i < |s[1..]| ==> s[1..][i] == s[i + 1];
      }
      NoSlashSplit(s[1..]);
      assert [s[0]] + s[1..] == s;
    }
  }

  /**
   * With at least one `/`, the src is the directory, a slash and the file
   * name: the directory is exactly the text before the last slash.
   */
  lemma PathAndName(src: string)
    requires '/' in src
    ensures var parts := Split(src, '/');
      src == ScriptPath(src) + "/" + parts[|parts| - 1]
  {
    var parts := Split(src, '/');
    JoinSplit(src, '/');
    OccurrencesPositive(src, '/');
    var dir, last := DirParts(src), parts[|parts| - 1];
    assert |dir| > 0 && parts == dir + [last];
    JoinSnoc("/", dir, last);
    assert src == Join("/", dir + [last]) == Join("/", dir) + "/" + last;
  }

  lemma {:induction false} OccurrencesPositive(s: string, c: char)
    requires c in s
    ensures Occurrences(s, c) > 0
    decreases |s|
  {
    if s[0] != c {
      assert c in s[1..] by {
        var i :| 0 <= i < |s| && s[i] == c;
        assert s[1..][i - 1] == c;
      }
      OccurrencesPositive(s[1..], c);
    }
  }

  /**
   * The unminified sources are chosen exactly when the loader sits directly
   * in a directory called `src`: the segment before the file name is `src`.
   */
  lemma ExtFromDirectory(src: string)
    ensures var parts := Split(src, '/');
      ScriptExt(src) == ".js" <==> |parts| >= 2 && parts[|parts| - 2] == "src"
    ensures ScriptExt(src) == ".js" || ScriptExt(src) == ".min.js"
  {
  }

  /**
   * A loader at `pre + d + "/" + name`, where `pre` is empty or ends in a
   * slash: the libraries are read from the directory `pre + d`, unminified
   * exactly when `d` is `src`.
   */
  lemma ExtOfLayout(pre: string, d: string, name: string)
    requires '/' !in d && '/' !in name
    requires pre == "" || pre[|pre| - 1] == '/'
    ensures ScriptPath(pre + d + "/" + name) == pre + d
    ensures ScriptExt(pre + d + "/" + name) == ".js" <==> d == "src"
  {
    var src := pre + d + "/" + name;
    SplitSnoc(pre + d, name, '/');
    assert src == (pre + d) + ['/'] + name;
    if pre == "" {
      assert pre + d == d;
      NoSlashSplit(d);
      assert DirParts(src) == [d];
    } else {
      var p := pre[..|pre| - 1];
      assert pre + d == p + ['/'] + d;
      SplitSnoc(p, d, '/');
      JoinSplit(p, '/');
      assert DirParts(src) == Split(p, '/') + [d];
      JoinSnoc("/", Split(p, '/'), d);
    }
  }

  /**
   * Both libraries sit next to the loader: whatever the directory before
   * the loader's file name, the libraries are read from it.
   */
  lemma SameDirectory(dir: string, name: string)
    requires '/' !in name
    ensures TracklibUrl(dir + "/" + name) == dir + "/tracklib" + ScriptExt(dir + "/" + name)
    ensures TrackuiUrl(dir + "/" + name) == dir + "/trackui" + ScriptExt(dir + "/" + name)
  {
    PathOfDirAndName(dir, name);
    var src := dir + "/" + name;
    assert TracklibUrl(src) == dir + "/" + "tracklib" + ScriptExt(src);
    assert TrackuiUrl(src) == dir + "/" + "trackui" + ScriptExt(src);
    assert "/" + "tracklib" == "/tracklib";
    assert "/" + "trackui" == "/trackui";
  }

  /** The directory of a loader at `dir + "/" + name` is `dir`. */
  lemma PathOfDirAndName(dir: string, name: string)
    requires '/' !in name
    ensures ScriptPath(dir + "/" + name) == dir
  {
    var src := dir + "/" + name;
    SplitSnoc(dir, name, '/');
    assert src == dir + ['/'] + name;
    assert DirParts(src) == Split(dir, '/');
    JoinSplit(dir, '/');
  }

  /* ----------------------------------------------------------------------
   * Loading order and the record stub
   * ---------------------------------------------------------------------- */

  /** Which script the page is waiting for. */
  datatype Phase = LoadingLib | LoadingUi | Ready

  /**
   * What can happen after the loader ran: the page calls TrackUI.record,
   * tracklib finishes loading, or trackui finishes loading.
   */
  datatype LoadEvent<T> = RecordCall(opts: T) | TracklibLoaded | TrackuiLoaded

  /**
   * `cache` is the closure over the latest stub options; `scripts` the
   * library URLs inserted so far; `records` the options the real record
   * has run with; `failed` is set when trackui loads and nothing was cached
   * (calling the undefined closure throws).
   */
  datatype State<T> = State(phase: Phase, cache: Option<T>, scripts: seq<string>, records: seq<T>, failed: bool)

  /** Right after the loader ran: tracklib is inserted and nothing is cached. */
  function Start<T>(src: string): State<T> {
    State(LoadingLib, None, [TracklibUrl(src)], [], false)
  }

  /** One event. Before trackui has loaded, record is the stub, which only caches. */
  function Step<T>(src: string, s: State<T>, ev: LoadEvent<T>): State<T> {
    match ev
    case RecordCall(opts) =>
      if s.phase == Ready then s.(records := s.records + [opts]) else s.(cache := Some(opts))
    case TracklibLoaded =>
      if s.phase == LoadingLib then s.(phase := LoadingUi, scripts := s.scripts + [TrackuiUrl(src)]) else s
    case TrackuiLoaded =>
      if s.phase != LoadingUi then s
      else if s.cache.Some? then s.(phase := Ready, records := s.records + [s.cache.value])
      else s.(phase := Ready, failed := true)
  }

  function Run<T>(src: string, evs: seq<LoadEvent<T>>): State<T>
    decreases |evs|
  {
    if |evs| == 0 then Start(src) else Step(src, Run(src, evs[..|evs| - 1]), evs[|evs| - 1])
  }

  /** The options of the latest record call, if any. */
  function LastRecordCall<T>(evs: seq<LoadEvent<T>>): (r: Option<T>)
    ensures r.Some? ==> exists i :: 0 <= i < |evs| && evs[i] == RecordCall(r.value)
                               && (forall j :: i < j < |evs| ==> !evs[j].RecordCall?)
    ensures r.None? ==> forall i :: 0 <= i < |evs| ==> !evs[i].RecordCall?
    decreases |evs|
  {
    if |evs| == 0 then None
    else if evs[|evs| - 1].RecordCall? then Some(evs[|evs| - 1].opts)
    else
      var r := LastRecordCall(evs[..|evs| - 1]);
      assert forall i :: 0 <= i < |evs| - 1 ==> evs[..|evs| - 1][i] == evs[i];
      r
  }

  /**
   * Over any sequence of events: trackui is inserted only after tracklib
   * has loaded, and right after it; until trackui has loaded nothing is
   * recorded and the cache holds the options of the latest call.
   */
  lemma {:induction false} RunInvariant<T>(src: string, evs: seq<LoadEvent<T>>)
    ensures var s := Run(src, evs);
      && s.scripts == (if s.phase == LoadingLib then [TracklibUrl(src)] else [TracklibUrl(src), TrackuiUrl(src)])
      && (s.phase != Ready ==> s.records == [] && !s.failed && s.cache == LastRecordCall(evs))
      && (s.phase != LoadingLib ==> exists i :: 0 <= i < |evs| && evs[i].TracklibLoaded?)
    decreases |evs|
  {
    if |evs| > 0 {
      var init := evs[..|evs| - 1];
      RunInvariant(src, init);
      var s := Run(src, init);
      if s.phase != LoadingLib {
        var i :| 0 <= i < |init| && init[i].TracklibLoaded?;
        assert evs[i] == init[i];
      } else if evs[|evs| - 1].TracklibLoaded? {
        assert evs[|evs| - 1].TracklibLoaded?;
      }
    }
  }

  /**
   * When trackui loads, the real record runs once with the options of the
   * latest stub call; without any, the call of the missing closure throws
   * and nothing is recorded.
   */
  lemma ReplayLatest<T>(src: string, evs: seq<LoadEvent<T>>)
    requires Run(src, evs).phase == LoadingUi
    ensures var s := Run(src, evs + [TrackuiLoaded]);
      && s.phase == Ready
      && (LastRecordCall(evs).Some? ==> s.records == [LastRecordCall(evs).value] && !s.failed)
      && (LastRecordCall(evs).None? ==> s.records == [] && s.failed)
  {
    RunInvariant(src, evs);
    assert (evs + [TrackuiLoaded])[..|evs|] == evs;
  }

  /** Record calls made once trackui has loaded go straight to the real record. */
  lemma ReadyRecords<T>(src: string, evs: seq<LoadEvent<T>>, opts: T)
    requires Run(src, evs).phase == Ready
    ensures Run(src, evs + [RecordCall(opts)]).records == Run(src, evs).records + [opts]
  {
    assert (evs + [RecordCall(opts)])[..|evs|] == evs;
  }
}

=== FILE: protocol.dfy ===
/**
 * What happens between the client and the receiver: the client posts
 * `key=value` pairs joined by `&` without escaping them, and the receiver
 * reads the raw body back. These lemmas follow one request through both
 * sides.
 */
module Protocol {
  import opened Wrappers
  import opened Text
  import opened TrackUI
  import Receiver

  /* ----------------------------------------------------------------------
   * Helpers about separators
   * ---------------------------------------------------------------------- */

  /** A character in neither the separator nor any part is not in the join. */
  lemma {:induction false} NotInJoin(c: char, sep: string, parts: seq<string>)
    requires c !in sep
    requires forall i :: 0 <= i < |parts| ==> c !in parts[i]
    ensures c !in Join(sep, parts)
    decreases |parts|
  {
    if |parts| > 1 {
      NotInJoin(c, sep, parts[1..]);
      assert forall i :: 0 <= i < |parts[1..]| ==> parts[1..][i] == parts[i + 1];
    }
  }

  /** `k=v` splits at its first `=` into the key and the text after it. */
  lemma KeyValueSplit(k: string, v: string)
    requires '=' !in k
    ensures Split(k + "=" + v, '=')[0] == k
    ensures '=' !in v ==> Split(k + "=" + v, '=') == [k, v]
  {
    SplitPrefix(k, "=" + v, '=');
    assert k + ("=" + v) == k + "=" + v;
    assert ("=" + v)[0] == '=' && ("=" + v)[1..] == v;
    assert Split("=" + v, '=') == [""] + Split(v, '=');
    if '=' !in v {
      SplitJoin([v], '=');
      assert Join("=", [v]) == v;
    }
  }

  /** A piece `key=value` with the key free of `=` and `&`: what the raw loop makes of it. */
  lemma PieceOfField(k: string, v: string)
    requires '=' !in k
    ensures PhpTruthy(k + "=" + v)
    ensures Receiver.PieceKey(k + "=" + v) == k
    ensures '=' !in v ==> Receiver.PieceValue(k + "=" + v) == Receiver.RawUrlDecode(v)
  {
    KeyValueSplit(k, v);
    var piece := k + "=" + v;
    assert piece[|k|] == '=';
    assert piece != "0";
  }

  /** A body whose keys and values have no `&` is cut back into its pieces. */
  lemma FormSplit(fields: seq<(string, string)>)
    requires |fields| >= 1
    requires forall i :: 0 <= i < |fields| ==> '&' !in fields[i].0 && '&' !in fields[i].1
    ensures Split(FormBody(fields), '&') == FormPieces(fields)
  {
    var pieces := FormPieces(fields);
    forall i | 0 <= i < |pieces|
      ensures '&' !in pieces[i]
    {
      assert pieces[i] == fields[i].0 + "=" + fields[i].1;
    }
    SplitJoin(pieces, '&');
    assert Join("&", pieces) == Join(['&'], pieces);
  }

  /* ----------------------------------------------------------------------
   * Round trip of the form body
   * ---------------------------------------------------------------------- */

  /** No key holds a separator, and no value an `&`. */
  predicate PlainFields(fields: seq<(string, string)>) {
    && (forall i :: 0 <= i < |fields| ==> '&' !in fields[i].0 && '=' !in fields[i].0)
    && (forall i :: 0 <= i < |fields| ==> '&' !in fields[i].1)
  }

  /**
   * The receiver reads back every field the client wrote, as long as no
   * separator is out of place, no later field has the same key, and the
   * value has no `=` or `%` (which the client does not escape).
   */
  lemma FormRoundTrip(fields: seq<(string, string)>, form: map<string, string>, i: nat)
    requires |fields| >= 1 && PlainFields(fields) && i < |fields|
    requires forall j :: i < j < |fields| ==> fields[j].0 != fields[i].0
    requires '=' !in fields[i].1 && '%' !in fields[i].1
    ensures var post := Receiver.ParseRawBody(form, FormBody(fields));
      fields[i].0 in post && post[fields[i].0] == fields[i].1
  {
    var pieces := FormPieces(fields);
    FormSplit(fields);
    PieceOfField(fields[i].0, fields[i].1);
    forall j | i < j < |pieces|
      ensures Receiver.PieceKey(pieces[j]) != Receiver.PieceKey(pieces[i])
    {
      PieceOfField(fields[j].0, fields[j].1);
    }
    Receiver.LastPieceWins(form, pieces, i);
  }

  /**
   * On the raw-body branch of the receiver (taken only when PHP exposes the
   * raw request body), an `=` inside a value cuts it: the receiver keeps
   * only the text before it. There, logged paths anchored at an id, and
   * attribute maps whose values hold `=`, lose the rest of the batch.
   */
  lemma ValueCutAtEquals(k: string, a: string, b: string)
    requires '=' !in k && '=' !in a && '%' !in a
    ensures Receiver.PieceValue(k + "=" + a + "=" + b) == a
  {
    var piece := k + "=" + a + "=" + b;
    SplitPrefix(k, "=" + a + "=" + b, '=');
    assert k + ("=" + a + "=" + b) == piece;
    var t := "=" + a + "=" + b;
    assert t[0] == '=' && t[1..] == a + "=" + b;
    SplitPrefix(a, "=" + b, '=');
    assert a + ("=" + b) == a + "=" + b;
    assert ("=" + b)[0] == '=';
    assert Split("=" + b, '=')[0] == "";
    assert Split(a + "=" + b, '=')[0] == a;
  }

  /* ----------------------------------------------------------------------
   * Buffered lines on the receiving side
   * ---------------------------------------------------------------------- */

  /**
   * The client joins its lines with commas, but the receiver splits on
   * `|||`: all the lines of a batch land on one row of the log.
   */
  lemma BatchIsOneRow(post: map<string, string>, lines: seq<string>)
    requires forall i :: 0 <= i < |lines| ==> '|' !in lines[i]
    requires "info" in post && post["info"] == InfoText(lines)
    ensures Receiver.InfoData(post) == Join(",", lines) + "\n"
  {
    NotInJoin('|', ",", lines);
  }

  /** With no line end in the lines, the batch adds exactly one line end to the log. */
  lemma BatchOneLineEnd(post: map<string, string>, lines: seq<string>)
    requires forall i :: 0 <= i < |lines| ==> '|' !in lines[i] && '\n' !in lines[i]
    requires "info" in post && post["info"] == InfoText(lines)
    ensures Occurrences(Receiver.InfoData(post), '\n') == 1
  {
    BatchIsOneRow(post, lines);
    NotInJoin('\n', ",", lines);
    OccurrencesConcat(Join(",", lines), "\n", '\n');
    NoOccurrences(Join(",", lines), '\n');
  }

  /** Had the lines been joined with `|||`, each would have become its own row. */
  lemma SeparatedBatchRows(post: map<string, string>, lines: seq<string>)
    requires forall i :: 0 <= i < |lines| ==> '|' !in lines[i]
    requires "info" in post && post["info"] == Join("|||", lines)
    ensures Receiver.InfoData(post) == Join("\n", lines) + "\n"
  {
    ReplaceJoin(lines, "|||", "\n");
  }

  lemma {:induction false} OccurrencesConcat(a: string, b: string, c: char)
    ensures Occurrences(a + b, c) == Occurrences(a, c) + Occurrences(b, c)
    decreases |a|
  {
    if |a| > 0 {
      assert (a + b)[1..] == a[1..] + b;
      OccurrencesConcat(a[1..], b, c);
    } else {
      assert a + b == b;
    }
  }

  lemma {:induction false} NoOccurrences(s: string, c: char)
    requires c !in s
    ensures Occurrences(s, c) == 0
    decreases |s|
  {
    if |s| > 0 {
      assert c !in s[1..] by {
        assert forall i :: 0 <= i < |s[1..]| ==> s[1..][i] == s[i + 1];
      }
      NoOccurrences(s[1..], c);
    }
  }

  /**
   * The log's header names eight columns, while every recorded line has
   * seven fields.
   */
  lemma HeaderHasEightColumns()
    ensures Split(Receiver.Header[..|Receiver.Header| - 1], ' ') == Receiver.Columns
    ensures |Receiver.Columns| == 8
  {
    var cols := Receiver.Columns;
    assert Receiver.Header[..|Receiver.Header| - 1] == Join([' '], cols);
    forall i | 0 <= i < |cols|
      ensures ' ' !in cols[i]
    {
      assert cols[i] in {"cursor", "timestamp", "xpos", "ypos", "event", "xpath", "attrs", "extras"};
    }
    SplitJoin(cols, ' ');
  }

  lemma EntryHasSevenFields(id: int, time: int, x: int, y: int, eventType: string, xpath: string, attrs: string)
    requires ' ' !in eventType && ' ' !in xpath && ' ' !in attrs
    ensures |Split(Entry(id, time, x, y, eventType, xpath, attrs), ' ')| == 7
  {
    EntryFields(id, time, x, y, eventType, xpath, attrs);
  }

  /* ----------------------------------------------------------------------
   * The session id round trip
   * ---------------------------------------------------------------------- */

  /**
   * The request the receiver gets for a posted body, as its raw-body branch
   * sees it: PHP's own form parsing left nothing and the raw body is present.
   */
  function Posted(body: string): Receiver.HttpRequest {
    Receiver.HttpRequest("POST", map[], Some(body))
  }

  /** Digits are none of the characters the form body treats specially. */
  lemma DigitsArePlain(t: string)
    requires forall i :: 0 <= i < |t| ==> IsDigit(t[i])
    ensures '&' !in t && '=' !in t && '%' !in t
  {
  }

  /** A printed integer is digits after an optional minus sign. */
  lemma IntTextPlain(i: int)
    ensures '&' !in IntText(i) && '=' !in IntText(i) && '%' !in IntText(i)
  {
    if i < 0 {
      var t := IntText(i);
      assert forall k :: 1 <= k < |t| ==> t[k] == NatText(-i)[k - 1];
    }
  }

  /**
   * An init body: the receiver sees the init action and reads the buffered
   * lines back, as long as no posted value has an `&` and the lines have no
   * `=` or `%`.
   */
  lemma InitBodyRoundTrip(s: Session, env: Env, async: bool)
    requires '&' !in env.escapedUrl
    requires '&' !in ValueText(Get(s.settings, "taskName")) && '&' !in ValueText(Get(s.settings, "layoutType"))
    requires '&' !in InfoText(s.info) && '=' !in InfoText(s.info) && '%' !in InfoText(s.info)
    ensures var post := Receiver.PostOf(Posted(InitNewData(s, env, async).1.body));
      && "action" in post && post["action"] == "init"
      && "info" in post && post["info"] == InfoText(s.info)
  {
    var fields := InitFields(s, env);
    InitFieldsPlain(s, env);
    FormRoundTrip(fields, map[], 11);
    FormRoundTrip(fields, map[], 8);
  }

  /** The init fields are plain when the URL, the task and the layout have no `&`. */
  lemma InitFieldsPlain(s: Session, env: Env)
    requires '&' !in env.escapedUrl && '&' !in InfoText(s.info)
    requires '&' !in ValueText(Get(s.settings, "taskName")) && '&' !in ValueText(Get(s.settings, "layoutType"))
    ensures PlainFields(InitFields(s, env))
  {
    var fields := InitFields(s, env);
    IntTextPlain(env.screenW);
    IntTextPlain(env.screenH);
    IntTextPlain(env.win.width);
    IntTextPlain(env.win.height);
    IntTextPlain(env.doc.width);
    IntTextPlain(env.doc.height);
    forall i | 0 <= i < |fields|
      ensures '&' !in fields[i].0 && '=' !in fields[i].0
    {
      assert fields[i].0 in {"url", "screenw", "screenh", "winw", "winh", "docw", "doch", "cookies", "info", "task", "layout", "action"};
    }
    forall i | 0 <= i < |fields|
      ensures '&' !in fields[i].1
    {
      if i == 7 {
        assert fields[i].1 == "undefined";
      } else if i == 11 {
        assert fields[i].1 == "init";
      }
    }
  }

  /**
   * The init exchange end to end: the receiver opens a fresh log holding
   * the header and the client's lines, answers its id, and the client
   * adopts exactly that id; with a positive first id (a timestamp) the
   * periodic append starts.
   */
  lemma InitSessionRoundTrip(s: Session, env: Env, async: bool, start: nat, files: map<string, string>, meta: string)
    requires '&' !in env.escapedUrl
    requires '&' !in ValueText(Get(s.settings, "taskName")) && '&' !in ValueText(Get(s.settings, "layoutType"))
    requires '&' !in InfoText(s.info) && '=' !in InfoText(s.info) && '%' !in InfoText(s.info)
    requires '|' !in InfoText(s.info)
    ensures var sent := InitNewData(s, env, async);
      var r := Receiver.Handle(Posted(sent.1.body), start, files, meta);
      var fid := Receiver.FreeFid(files, start);
      && Receiver.CsvName(fid) !in files
      && Receiver.CsvName(fid) in r.files
      && r.files[Receiver.CsvName(fid)] == Receiver.Header + InfoText(s.info) + "\n"
      && SetUserId(sent.0, r.body).0.uid == Int(fid)
      && (start > 0 ==> SetUserId(sent.0, r.body).1)
  {
    var sent := InitNewData(s, env, async);
    var req := Posted(sent.1.body);
    InitBodyRoundTrip(s, env, async);
    assert AsciiLower(req.verb) != "options" by {
      assert AsciiLower(req.verb)[0] == 'p';
    }
    var post := Receiver.PostOf(req);
    assert Receiver.Field(post, "info") == InfoText(s.info);
    assert Receiver.InfoData(post) == InfoText(s.info) + "\n";
    Receiver.InitAnswer(req, start, files, meta);
    var fid := Receiver.FreeFid(files, start);
    ParseIntOfNonNegative(fid);
  }

  /**
   * An append body: the receiver reads back the uid and the action the
   * client wrote, and the info field as well when it has no `=` or `%`.
   */
  lemma AppendBodyRoundTrip(form: map<string, string>, uid: string, info: string)
    requires '&' !in uid && '=' !in uid && '%' !in uid && '&' !in info
    ensures var post := Receiver.ParseRawBody(form, FormBody([("uid", uid), ("info", info), ("action", "append")]));
      && "uid" in post && post["uid"] == uid
      && "action" in post && post["action"] == "append"
      && ('=' !in info && '%' !in info ==> "info" in post && post["info"] == info)
  {
    var fields := [("uid", uid), ("info", info), ("action", "append")];
    assert PlainFields(fields);
    FormRoundTrip(fields, form, 0);
    FormRoundTrip(fields, form, 2);
    if '=' !in info && '%' !in info {
      FormRoundTrip(fields, form, 1);
    }
  }

  /**
   * The id in the init answer comes back in every later append: once the
   * client has adopted a positive id, its flush posts that id with the
   * append action, and the receiver appends to the log the init created.
   */
  lemma SessionRoundTrip(s: Session, env: Env, fid: nat)
    requires fid > 0
    requires '&' !in InfoText(s.info)
    ensures var s1 := SetUserId(s, NatText(fid)).0;
      var post := Receiver.PostOf(Posted(Flush(s1, env).1.body));
      && "uid" in post && post["uid"] == NatText(fid)
      && "action" in post && post["action"] == "append"
      && Receiver.LogDir + "/" + Receiver.Field(post, "uid") + Receiver.LogExt == Receiver.CsvName(fid)
  {
    AdoptUid(s, env, fid);
    DigitsArePlain(NatText(fid));
    AppendBodyRoundTrip(map[], NatText(fid), InfoText(s.info));
  }

  /**
   * An empty batch is still posted by the client, and the receiver drops
   * it without touching any file.
   */
  lemma EmptyBatchRoundTrip(s: Session, env: Env, start: nat, files: map<string, string>, meta: string)
    requires s.uid.IsTruthy() && s.info == []
    ensures var req := Posted(Flush(s, env).1.body);
      Receiver.Handle(req, start, files, meta) == Receiver.Response(files, "")
  {
    var t := s.uid.Text();
    assert InfoText([]) == "";
    assert '&' !in t && '=' !in t && '%' !in t by {
      if s.uid.v < 0 {
        assert t == "-" + NatText(-s.uid.v);
        DigitsArePlain(NatText(-s.uid.v));
      } else {
        DigitsArePlain(NatText(s.uid.v));
      }
    }
    AppendBodyRoundTrip(map[], t, "");
    var req := Posted(Flush(s, env).1.body);
    Receiver.EmptyAppendDropped(req, start, files, meta);
  }
}

=== FILE: receiver.dfy ===
/**
 * The sample receiver (save.php): it reads the posted fields, turns the
 * client's buffered lines into CSV rows and either opens a new log under a
 * fresh numeric id or appends to the log of an existing id. The log
 * directory is a map from file name to content.
 */
module Receiver {
  import opened Wrappers
  import opened Text

  /* ----------------------------------------------------------------------
   * Constants
   * ---------------------------------------------------------------------- */

  const LogDir: string := "logs"
  const LogExt: string := ".csv"
  /** The separator the receiver expects between buffered lines. */
  const InfoSep: string := "|||"
  /** PHP_EOL on the Unix hosts the receiver runs on. */
  const Eol: string := "\n"
  /** The column names of the log, in order. */
  const Columns: seq<string> := ["cursor", "timestamp", "xpos", "ypos", "event", "xpath", "attrs", "extras"]
  /** The first line of every new log: the column names separated by spaces. */
  const Header: string := Join(" ", Columns) + Eol

  /** The log of file id `fid`. */
  function CsvName(fid: nat): string {
    LogDir + "/" + NatText(fid) + LogExt
  }

  /** The metadata file written next to it. */
  function XmlName(fid: nat): string {
    LogDir + "/" + NatText(fid) + ".xml"
  }

  /** Different ids name different logs. */
  lemma CsvNameInjective(m: nat, n: nat)
    requires CsvName(m) == CsvName(n)
    ensures m == n
  {
    var a, b := CsvName(m), CsvName(n);
    assert NatText(m) == a[5..|a| - 4];
    assert NatText(n) == b[5..|b| - 4];
    NatTextInjective(m, n);
  }

  /** A log never shares its name with a metadata file. */
  lemma CsvNotXml(m: nat, n: nat)
    ensures CsvName(m) != XmlName(n)
  {
    var a, b := CsvName(m), XmlName(n);
    assert a[|a| - 1] == 'v' && b[|b| - 1] == 'l';
  }

  /* ----------------------------------------------------------------------
   * Reading the posted fields
   * ---------------------------------------------------------------------- */

  predicate IsHex(ch: char) {
    DigitValue(ch) < 16
  }

  /**
   * PHP rawurldecode: each `%` followed by two hexadecimal digits becomes
   * the byte they spell; everything else, `+` included, is kept.
   */
  function RawUrlDecode(s: string): (r: string)
    ensures |r| <= |s|
    ensures '%' !in s ==> r == s
    decreases |s|
  {
    if |s| == 0 then ""
    else if s[0] == '%' && |s| >= 3 && IsHex(s[1]) && IsHex(s[2]) then
      [(16 * DigitValue(s[1]) + DigitValue(s[2])) as char] + RawUrlDecode(s[3..])
    else
      [s[0]] + RawUrlDecode(s[1..])
  }

  /** An upper-case hexadecimal digit. */
  function HexChar(d: nat): (ch: char)
    requires d < 16
    ensures IsHex(ch) && DigitValue(ch) == d
  {
    if d < 10 then (48 + d) as char else (55 + d) as char
  }

  /**
   * Every character written as `%` and two hexadecimal digits, the way PHP
   * rawurlencode writes a byte it escapes: the reference the decoder is
   * checked against.
   */
  function PercentEncode(s: string): (r: string)
    requires forall i :: 0 <= i < |s| ==> s[i] as int < 256
    ensures |r| == 3 * |s|
    ensures forall i :: 0 <= i < |s| ==> r[3 * i] == '%'
    decreases |s|
  {
    if |s| == 0 then ""
    else
      var rest := PercentEncode(s[1..]);
      var r := "%" + [HexChar(s[0] as int / 16), HexChar(s[0] as int % 16)] + rest;
      assert forall i :: 1 <= i < |s| ==> r[3 * i] == rest[3 * (i - 1)];
      r
  }

  /** Decoding undoes percent-encoding of any byte string. */
  lemma {:induction false} DecodeEncoded(s: string)
    requires forall i :: 0 <= i < |s| ==> s[i] as int < 256
    ensures RawUrlDecode(PercentEncode(s)) == s
    decreases |s|
  {
    if |s| > 0 {
      var e := PercentEncode(s);
      var c := s[0] as int;
      assert e[0] == '%' && e[1] == HexChar(c / 16) && e[2] == HexChar(c % 16);
      assert e[3..] == PercentEncode(s[1..]);
      DecodeEncoded(s[1..]);
      assert (16 * (c / 16) + c % 16) as char == s[0];
      assert s == [s[0]] + s[1..];
    }
  }

  /** One raw `key=value` piece: the key is the text before the first `=`, the value the text after it up to the next `=`. */
  function PieceKey(piece: string): string {
    Split(piece, '=')[0]
  }

  function PieceValue(piece: string): string {
    var kv := Split(piece, '=');
    RawUrlDecode(if |kv| > 1 then kv[1] else "")
  }

  /**
   * The raw-body loop: the body is cut at every `&`; pieces PHP calls empty
   * ("" and "0") are skipped, and every other piece sets its key, later
   * pieces overwriting earlier ones.
   */
  function ParsePieces(post: map<string, string>, pieces: seq<string>): (r: map<string, string>)
    decreases |pieces|
  {
    if |pieces| == 0 then post
    else
      var piece := pieces[|pieces| - 1];
      var init := ParsePieces(post, pieces[..|pieces| - 1]);
      if PhpTruthy(piece) then init[PieceKey(piece) := PieceValue(piece)] else init
  }

  function ParseRawBody(post: map<string, string>, body: string): map<string, string> {
    ParsePieces(post, Split(body, '&'))
  }

  /** Some non-empty piece among the first `n` has key `k`. */
  predicate Sets(pieces: seq<string>, k: string) {
    exists i :: 0 <= i < |pieces| && PhpTruthy(pieces[i]) && PieceKey(pieces[i]) == k
  }

  /**
   * The parsed fields are those PHP parsed itself plus the keys of the
   * non-empty pieces; a field no piece names keeps its value.
   */
  lemma {:induction false} ParsePiecesKeys(post: map<string, string>, pieces: seq<string>)
    ensures forall k :: k in ParsePieces(post, pieces) <==> k in post || Sets(pieces, k)
    ensures forall k :: k in post && !Sets(pieces, k) ==> ParsePieces(post, pieces)[k] == post[k]
    decreases |pieces|
  {
    if |pieces| > 0 {
      var n := |pieces| - 1;
      var init := pieces[..n];
      ParsePiecesKeys(post, init);
      forall k
        ensures Sets(pieces, k) <==> Sets(init, k) || (PhpTruthy(pieces[n]) && PieceKey(pieces[n]) == k)
      {
        if Sets(pieces, k) {
          var i :| 0 <= i < |pieces| && PhpTruthy(pieces[i]) && PieceKey(pieces[i]) == k;
          if i < n {
            assert init[i] == pieces[i];
          }
        }
        if Sets(init, k) {
          var i :| 0 <= i < |init| && PhpTruthy(init[i]) && PieceKey(init[i]) == k;
          assert pieces[i] == init[i];
        }
      }
    }
  }

  /** The last non-empty piece with a given key decides its value. */
  lemma {:induction false} LastPieceWins(post: map<string, string>, pieces: seq<string>, i: nat)
    requires i < |pieces| && PhpTruthy(pieces[i])
    requires forall j :: i < j < |pieces| && PhpTruthy(pieces[j]) ==> PieceKey(pieces[j]) != PieceKey(pieces[i])
    ensures PieceKey(pieces[i]) in ParsePieces(post, pieces)
    ensures ParsePieces(post, pieces)[PieceKey(pieces[i])] == PieceValue(pieces[i])
    decreases |pieces|
  {
    var n := |pieces| - 1;
    if i < n {
      var init := pieces[..n];
      assert init[i] == pieces[i];
      assert forall j :: i < j < |init| ==> init[j] == pieces[j];
      LastPieceWins(post, init, i);
    }
  }

  /** A request as the receiver sees it: the method, PHP's own form fields, and the raw body when PHP exposes it. */
  datatype HttpRequest = HttpRequest(verb: string, form: map<string, string>, raw: Option<string>)

  /** $_POST after the raw body, if any, has been folded in. */
  function PostOf(req: HttpRequest): map<string, string> {
    if req.raw.Some? then ParseRawBody(req.form, req.raw.value) else req.form
  }

  /** A missing field reads as the empty string (PHP turns null into ""). */
  function Field(post: map<string, string>, key: string): string {
    if key in post then post[key] else ""
  }

  /** info_data: the buffered lines with the separator replaced by line ends, plus a final line end. */
  function InfoData(post: map<string, string>): (r: string)
    ensures |r| >= 1 && r[|r| - 1] == '\n'
    ensures "info" !in post ==> r == Eol
    ensures '|' !in Field(post, "info") ==> r == Field(post, "info") + Eol
  {
    var info := Field(post, "info");
    if '|' !in info then ReplaceAbsent(info, InfoSep, Eol); Replace(info, InfoSep, Eol) + Eol
    else Replace(info, InfoSep, Eol) + Eol
  }

  /* ----------------------------------------------------------------------
   * Choosing a file id
   * ---------------------------------------------------------------------- */

  /** The logs already present with an id of at least `fid`. */
  ghost function Pending(files: map<string, string>, fid: nat): set<string> {
    set name | name in files.Keys && exists k: nat :: k >= fid && name == CsvName(k)
  }

  lemma PendingShrinks(files: map<string, string>, fid: nat)
    requires CsvName(fid) in files
    ensures |Pending(files, fid + 1)| < |Pending(files, fid)|
  {
    var later, now := Pending(files, fid + 1), Pending(files, fid);
    assert CsvName(fid) in now;
    if CsvName(fid) in later {
      var k: nat :| k >= fid + 1 && CsvName(fid) == CsvName(k);
      CsvNameInjective(fid, k);
    }
    assert later + {CsvName(fid)} <= now;
    assert |later + {CsvName(fid)}| == |later| + 1;
    SubsetCard(later + {CsvName(fid)}, now);
  }

  lemma SubsetCard<T>(a: set<T>, b: set<T>)
    requires a <= b
    ensures |a| <= |b|
  {
    assert b == a + (b - a);
  }

  /**
   * The id loop of the init branch: starting from the timestamp, step
   * past every id whose log already exists.
   */
  function FreeFid(files: map<string, string>, fid: nat): (r: nat)
    ensures r >= fid
    ensures CsvName(r) !in files
    ensures forall k :: fid <= k < r ==> CsvName(k) in files
    decreases |Pending(files, fid)|
  {
    if CsvName(fid) in files then
      PendingShrinks(files, fid);
      FreeFid(files, fid + 1)
    else fid
  }

  /* ----------------------------------------------------------------------
   * The request handler
   * ---------------------------------------------------------------------- */

  /** The answer: the log directory afterwards and the response body. */
  datatype Response = Response(files: map<string, string>, body: string)

  /**
   * save.php. `start` is the timestamp-derived first id to try and `meta`
   * the metadata document written beside a new log.
   */
  function Handle(req: HttpRequest, start: nat, files: map<string, string>, meta: string): (r: Response)
    ensures AsciiLower(req.verb) == "options" ==> r == Response(files, "")
    ensures "action" !in PostOf(req) ==> r == Response(files, "")
    ensures r.body != "" ==> AsciiLower(req.verb) != "options" && Field(PostOf(req), "action") == "init"
  {
    if AsciiLower(req.verb) == "options" then Response(files, "")
    else
      var post := PostOf(req);
      if "action" !in post then Response(files, "")
      else
        var infoData := InfoData(post);
        if post["action"] == "init" then
          var fid := FreeFid(files, start);
          Response(files[CsvName(fid) := Header + infoData][XmlName(fid) := meta], NatText(fid))
        else if post["action"] == "append" then
          var name := LogDir + "/" + Field(post, "uid") + LogExt;
          if PhpTruthy(PhpTrim(infoData)) then
            Response(files[name := (if name in files then files[name] else "") + infoData], "")
          else Response(files, "")
        else Response(files, "")
  }

  /** Does this request reach the dispatch on `action`? */
  predicate Dispatched(req: HttpRequest) {
    AsciiLower(req.verb) != "options" && "action" in PostOf(req)
  }

  /**
   * init: the new log gets an id no smaller than the start, which had no
   * log before; it holds the header and the lines; the answer is the id;
   * no other file changes.
   */
  lemma HandleInit(req: HttpRequest, start: nat, files: map<string, string>, meta: string)
    requires Dispatched(req) && PostOf(req)["action"] == "init"
    ensures var r := Handle(req, start, files, meta);
      exists fid: nat ::
        && fid >= start && CsvName(fid) !in files
        && r.body == NatText(fid)
        && CsvName(fid) in r.files && r.files[CsvName(fid)] == Header + InfoData(PostOf(req))
        && XmlName(fid) in r.files && r.files[XmlName(fid)] == meta
        && r.files.Keys == files.Keys + {CsvName(fid), XmlName(fid)}
        && (forall n :: n in files && n != CsvName(fid) && n != XmlName(fid) ==> r.files[n] == files[n])
  {
    var fid := FreeFid(files, start);
    CsvNotXml(fid, fid);
    assert Handle(req, start, files, meta).body == NatText(fid);
  }

  /** init, for the id the loop settles on: the answer names it and its new log holds the header and the lines. */
  lemma InitAnswer(req: HttpRequest, start: nat, files: map<string, string>, meta: string)
    requires Dispatched(req) && PostOf(req)["action"] == "init"
    ensures var fid := FreeFid(files, start);
      var r := Handle(req, start, files, meta);
      && r.body == NatText(fid)
      && CsvName(fid) in r.files && r.files[CsvName(fid)] == Header + InfoData(PostOf(req))
  {
    CsvNotXml(FreeFid(files, start), FreeFid(files, start));
  }

  /** The id the init answer carries is the first one at or after the start whose log was free. */
  lemma InitIdIsFirstFree(req: HttpRequest, start: nat, files: map<string, string>, meta: string, k: nat)
    requires Dispatched(req) && PostOf(req)["action"] == "init"
    requires start <= k && CsvName(k) !in files
    ensures Handle(req, start, files, meta).body == NatText(FreeFid(files, start))
    ensures FreeFid(files, start) <= k
  {
  }

  /**
   * append: when the lines are not blank they are added to the end of the
   * uid's log (created if missing); blank lines, including an empty batch,
   * change nothing. The answer is empty either way.
   */
  lemma HandleAppend(req: HttpRequest, start: nat, files: map<string, string>, meta: string)
    requires Dispatched(req) && PostOf(req)["action"] == "append"
    ensures var r := Handle(req, start, files, meta);
      var name := LogDir + "/" + Field(PostOf(req), "uid") + LogExt;
      var data := InfoData(PostOf(req));
      var before := if name in files then files[name] else "";
      && r.body == ""
      && (PhpTruthy(PhpTrim(data)) ==>
            && name in r.files && r.files.Keys == files.Keys + {name}
            && |r.files[name]| == |before| + |data|
            && r.files[name][..|before|] == before && r.files[name][|before|..] == data
            && (forall n :: n in files && n != name ==> r.files[n] == files[n]))
      && (!PhpTruthy(PhpTrim(data)) ==> r.files == files)
  {
    var post := PostOf(req);
    assert post["action"] != "init" by {
      assert post["action"][0] == 'a';
    }
  }

  /** The lines of an empty batch are blank: appending nothing leaves every file as it was. */
  lemma EmptyAppendDropped(req: HttpRequest, start: nat, files: map<string, string>, meta: string)
    requires Dispatched(req) && PostOf(req)["action"] == "append"
    requires Field(PostOf(req), "info") == ""
    ensures Handle(req, start, files, meta) == Response(files, "")
  {
    HandleAppend(req, start, files, meta);
    var data := InfoData(PostOf(req));
    assert data == "\n";
    PhpTrimEmpty(data);
  }

  /** Any other action is read and ignored. */
  lemma HandleOther(req: HttpRequest, start: nat, files: map<string, string>, meta: string)
    requires Dispatched(req)
    requires PostOf(req)["action"] != "init" && PostOf(req)["action"] != "append"
    ensures Handle(req, start, files, meta) == Response(files, "")
  {
  }

  /** A metadata file name. */
  ghost predicate IsXmlName(n: string) {
    exists fid: nat :: n == XmlName(fid)
  }

  /**
   * No request removes a file, and no existing log other than the one the
   * uid names changes. Only metadata files can be overwritten: the id loop
   * looks for a free log name, not a free metadata name.
   */
  lemma HandleKeepsOthers(req: HttpRequest, start: nat, files: map<string, string>, meta: string)
    ensures files.Keys <= Handle(req, start, files, meta).files.Keys
    ensures forall n :: n in files && n != LogDir + "/" + Field(PostOf(req), "uid") + LogExt && !IsXmlName(n) ==>
      Handle(req, start, files, meta).files[n] == files[n]
  {
    if Dispatched(req) && PostOf(req)["action"] == "init" {
      HandleInit(req, start, files, meta);
    }
  }

  /** A stale metadata file under the chosen id is replaced by the new metadata. */
  lemma InitReplacesStaleXml(req: HttpRequest, start: nat, files: map<string, string>, meta: string)
    requires Dispatched(req) && PostOf(req)["action"] == "init"
    requires XmlName(FreeFid(files, start)) in files
    ensures Handle(req, start, files, meta).files[XmlName(FreeFid(files, start))] == meta
  {
  }
}

=== FILE: text.dfy ===
/**
 * String primitives shared by the client (JavaScript) and the receiver (PHP):
 * joining and splitting, substring replacement, decimal rendering of
 * integers, JavaScript's `parseInt`, PHP's `trim` and ASCII case folding.
 * Strings are sequences of characters; PHP byte strings are read one byte
 * per character.
 */
module Text {

  /* ----------------------------------------------------------------------
   * Join and split
   * ---------------------------------------------------------------------- */

  /** `parts` with `sep` between neighbours: Array.prototype.join and PHP's implode. */
  function Join(sep: string, parts: seq<string>): string
    decreases |parts|
  {
    if |parts| == 0 then ""
    else if |parts| == 1 then parts[0]
    else parts[0] + sep + Join(sep, parts[1..])
  }

  /** Appending one part adds one separator and the part at the end. */
  lemma {:induction false} JoinSnoc(sep: string, parts: seq<string>, x: string)
    requires |parts| >= 1
    ensures Join(sep, parts + [x]) == Join(sep, parts) + sep + x
    decreases |parts|
  {
    if |parts| == 1 {
      assert (parts + [x])[1..] == [x];
    } else {
      assert (parts + [x])[1..] == parts[1..] + [x];
      JoinSnoc(sep, parts[1..], x);
    }
  }

  /** The number of times `c` occurs in `s`. */
  function Occurrences(s: string, c: char): nat
    decreases |s|
  {
    if |s| == 0 then 0 else (if s[0] == c then 1 else 0) + Occurrences(s[1..], c)
  }

  /**
   * The pieces of `s` between occurrences of `c`: String.prototype.split
   * and PHP's explode with a one-character separator. There is always at
   * least one piece, one more than there are separators.
   */
  function Split(s: string, c: char): (r: seq<string>)
    ensures |r| == Occurrences(s, c) + 1
    ensures forall i :: 0 <= i < |r| ==> c !in r[i]
    decreases |s|
  {
    if |s| == 0 then [""]
    else
      var rest := Split(s[1..], c);
      if s[0] == c then [""] + rest
      else [[s[0]] + rest[0]] + rest[1..]
  }

  lemma Join3(sep: string, a: string, b: string, c: string)
    ensures Join(sep, [a, b, c]) == a + sep + b + sep + c
  {
    assert [a, b, c][1..] == [b, c] && [b, c][1..] == [c];
    assert Join(sep, [c]) == c;
    assert Join(sep, [b, c]) == b + sep + c;
    assert Join(sep, [a, b, c]) == a + sep + (b + sep + c);
  }

  /** Joining the pieces with the separator gives back the string. */
  lemma {:induction false} JoinSplit(s: string, c: char)
    ensures Join([c], Split(s, c)) == s
    decreases |s|
  {
    if |s| > 0 {
      var rest := Split(s[1..], c);
      JoinSplit(s[1..], c);
      assert s == [s[0]] + s[1..];
      if s[0] == c {
        assert ([""] + rest)[1..] == rest;
      } else {
        var r := [[s[0]] + rest[0]] + rest[1..];
        if |rest| > 1 {
          assert r[1..] == rest[1..];
        }
      }
    }
  }

  /** A separator-free prefix is glued onto the first piece of the rest. */
  lemma {:induction false} SplitPrefix(a: string, t: string, c: char)
    requires c !in a
    ensures Split(a + t, c) == [a + Split(t, c)[0]] + Split(t, c)[1..]
    decreases |a|
  {
    if |a| == 0 {
      assert a + t == t;
      assert a + Split(t, c)[0] == Split(t, c)[0];
      assert Split(t, c) == [Split(t, c)[0]] + Split(t, c)[1..];
    } else {
      assert (a + t)[1..] == a[1..] + t;
      SplitPrefix(a[1..], t, c);
      assert [a[0]] + (a[1..] + Split(t, c)[0]) == a + Split(t, c)[0];
    }
  }

  /** A last separator followed by text without it: the text becomes the last piece. */
  lemma {:induction false} SplitSnoc(a: string, b: string, c: char)
    requires c !in b
    ensures Split(a + [c] + b, c) == Split(a, c) + [b]
    decreases |a|
  {
    if |a| == 0 {
      assert a + [c] + b == [c] + b;
      assert ([c] + b)[1..] == b;
      SplitJoin([b], c);
      assert Join([c], [b]) == b;
    } else {
      assert (a + [c] + b)[1..] == a[1..] + [c] + b;
      SplitSnoc(a[1..], b, c);
      var rest := Split(a[1..], c);
      assert Split(a[1..] + [c] + b, c) == rest + [b];
      if a[0] != c {
        assert (rest + [b])[0] == rest[0];
        assert (rest + [b])[1..] == rest[1..] + [b];
      }
    }
  }

  /** Splitting a join of separator-free parts gives back the parts. */
  lemma {:induction false} SplitJoin(parts: seq<string>, c: char)
    requires |parts| >= 1
    requires forall i :: 0 <= i < |parts| ==> c !in parts[i]
    ensures Split(Join([c], parts), c) == parts
    decreases |parts|
  {
    if |parts| == 1 {
      SplitPrefix(parts[0], "", c);
      assert parts[0] + "" == parts[0];
      assert Split("", c) == [""];
      assert parts == [parts[0]];
    } else {
      var rest := parts[1..];
      SplitJoin(rest, c);
      var t := [c] + Join([c], rest);
      assert Join([c], parts) == parts[0] + t;
      SplitPrefix(parts[0], t, c);
      assert t[1..] == Join([c], rest);
      assert Split(t, c) == [""] + rest;
      assert parts[0] + "" == parts[0];
      assert parts == [parts[0]] + rest;
    }
  }

  /* ----------------------------------------------------------------------
   * Substring replacement (PHP str_replace with one search string)
   * ---------------------------------------------------------------------- */

  /** Every non-overlapping occurrence of `pat`, scanning left to right, replaced by `rep`. */
  function Replace(s: string, pat: string, rep: string): string
    requires |pat| > 0
    decreases |s|
  {
    if |s| < |pat| then s
    else if s[..|pat|] == pat then rep + Replace(s[|pat|..], pat, rep)
    else [s[0]] + Replace(s[1..], pat, rep)
  }

  /** Text without the first character of `pat` passes through unchanged. */
  lemma {:induction false} ReplaceSkips(a: string, t: string, pat: string, rep: string)
    requires |pat| > 0
    requires pat[0] !in a
    ensures Replace(a + t, pat, rep) == a + Replace(t, pat, rep)
    decreases |a|
  {
    if |a| > 0 {
      var s := a + t;
      if |s| >= |pat| {
        assert s[0] == a[0];
        assert s[..|pat|][0] == a[0];
        assert s[1..] == a[1..] + t;
        ReplaceSkips(a[1..], t, pat, rep);
        assert [a[0]] + (a[1..] + Replace(t, pat, rep)) == a + Replace(t, pat, rep);
      }
    } else {
      assert a + t == t;
    }
  }

  /** A string that cannot contain `pat` is left unchanged. */
  lemma ReplaceAbsent(s: string, pat: string, rep: string)
    requires |pat| > 0
    requires pat[0] !in s
    ensures Replace(s, pat, rep) == s
  {
    ReplaceSkips(s, "", pat, rep);
    assert s + "" == s;
  }

  /** Replacing the separator of a join re-joins the same parts with `rep`. */
  lemma {:induction false} ReplaceJoin(xs: seq<string>, pat: string, rep: string)
    requires |pat| > 0
    requires forall i :: 0 <= i < |xs| ==> pat[0] !in xs[i]
    ensures Replace(Join(pat, xs), pat, rep) == Join(rep, xs)
    decreases |xs|
  {
    if |xs| == 1 {
      ReplaceAbsent(xs[0], pat, rep);
    } else if |xs| > 1 {
      var tail := Join(pat, xs[1..]);
      var u := pat + tail;
      assert Join(pat, xs) == xs[0] + u;
      ReplaceSkips(xs[0], u, pat, rep);
      assert u[..|pat|] == pat;
      assert u[|pat|..] == tail;
      ReplaceJoin(xs[1..], pat, rep);
    }
  }

  /* ----------------------------------------------------------------------
   * Decimal rendering and digit values
   * ---------------------------------------------------------------------- */

  predicate IsDigit(ch: char) {
    '0' <= ch <= '9'
  }

  function DigitChar(d: nat): (ch: char)
    requires d < 10
    ensures IsDigit(ch)
  {
    (48 + d) as char
  }

  /** The value of `ch` as a digit of radix up to 36 (letters either case); 36 if it is none. */
  function DigitValue(ch: char): nat {
    if '0' <= ch <= '9' then ch as nat - 48
    else if 'a' <= ch <= 'z' then ch as nat - 87
    else if 'A' <= ch <= 'Z' then ch as nat - 55
    else 36
  }

  /** The value of the digit string `s` in `radix`, most significant digit first. */
  function RadixValue(s: string, radix: nat): nat
    decreases |s|
  {
    if |s| == 0 then 0 else radix * RadixValue(s[..|s| - 1], radix) + DigitValue(s[|s| - 1])
  }

  /** Decimal digits of `n` without leading zeros: how JavaScript and PHP print a non-negative integer. */
  function NatText(n: nat): (r: string)
    ensures 1 <= |r|
    ensures forall i :: 0 <= i < |r| ==> IsDigit(r[i])
    decreases n
  {
    if n < 10 then [DigitChar(n)] else NatText(n / 10) + [DigitChar(n % 10)]
  }

  /** Reading the printed digits back gives the number. */
  lemma {:induction false} NatTextValue(n: nat)
    ensures RadixValue(NatText(n), 10) == n
    decreases n
  {
    if n >= 10 {
      NatTextValue(n / 10);
      var s := NatText(n);
      assert s[..|s| - 1] == NatText(n / 10);
    }
  }

  /** Only zero is printed with a leading `0`. */
  lemma {:induction false} NatTextLeadingDigit(n: nat)
    ensures NatText(n)[0] == '0' <==> n == 0
    decreases n
  {
    if n >= 10 {
      NatTextLeadingDigit(n / 10);
    }
  }

  /** Different numbers print differently. */
  lemma NatTextInjective(m: nat, n: nat)
    requires NatText(m) == NatText(n)
    ensures m == n
  {
    NatTextValue(m);
    NatTextValue(n);
  }

  /** A JavaScript integer-valued number converted to a string. */
  function IntText(i: int): string {
    if i < 0 then "-" + NatText(-i) else NatText(i)
  }

  /* ----------------------------------------------------------------------
   * JavaScript parseInt with no radix argument
   * ---------------------------------------------------------------------- */

  /** The number `parseInt` returns: an integer, or NaN. */
  datatype ParsedInt = Int(v: int) | NaN {
    /** JavaScript truthiness: NaN and zero are falsy. */
    predicate IsTruthy() {
      Int? && v != 0
    }

    /** The number converted to a string, as `"uid=" + uid` does. */
    function Text(): string {
      match this
      case Int(v) => IntText(v)
      case NaN => "NaN"
    }
  }

  /** The white space and line terminators parseInt skips before the number. */
  predicate IsJsSpace(ch: char) {
    || ch == '\t' || ch == '\n' || ch == '\U{000B}' || ch == '\U{000C}' || ch == '\r'
    || ch == ' ' || ch == '\U{00A0}' || ch == '\U{1680}' || ('\U{2000}' <= ch <= '\U{200A}')
    || ch == '\U{2028}' || ch == '\U{2029}' || ch == '\U{202F}' || ch == '\U{205F}'
    || ch == '\U{3000}' || ch == '\U{FEFF}'
  }

  /** `s` without its leading white space. */
  function TrimStart(s: string): (r: string)
    ensures |r| <= |s| && r == s[|s| - |r|..]
    ensures forall i :: 0 <= i < |s| - |r| ==> IsJsSpace(s[i])
    ensures |r| > 0 ==> !IsJsSpace(r[0])
    decreases |s|
  {
    if |s| > 0 && IsJsSpace(s[0]) then TrimStart(s[1..]) else s
  }

  /** The length of the longest prefix of `s` made of digits of `radix`. */
  function DigitRun(s: string, radix: nat): (n: nat)
    ensures n <= |s|
    ensures forall i :: 0 <= i < n ==> DigitValue(s[i]) < radix
    ensures n < |s| ==> DigitValue(s[n]) >= radix
    decreases |s|
  {
    if |s| > 0 && DigitValue(s[0]) < radix then 1 + DigitRun(s[1..], radix) else 0
  }

  /**
   * The unsigned part of parseInt: switch to radix 16 after a `0x`/`0X`
   * prefix, then read the longest run of digits; no digit at all gives NaN.
   */
  function ParseUnsigned(u: string): (r: ParsedInt)
    ensures r.Int? ==> r.v >= 0
  {
    var hex := |u| >= 2 && u[0] == '0' && (u[1] == 'x' || u[1] == 'X');
    var radix := if hex then 16 else 10;
    var digits := if hex then u[2..] else u;
    var n := DigitRun(digits, radix);
    if n == 0 then NaN else Int(RadixValue(digits[..n], radix))
  }

  function Negate(r: ParsedInt): ParsedInt {
    match r
    case Int(v) => Int(-v)
    case NaN => NaN
  }

  /** parseInt(s): skip leading white space, read an optional sign, then the unsigned number. */
  function ParseInt(s: string): ParsedInt {
    var t := TrimStart(s);
    if |t| > 0 && t[0] == '-' then Negate(ParseUnsigned(t[1..]))
    else if |t| > 0 && t[0] == '+' then ParseUnsigned(t[1..])
    else ParseUnsigned(t)
  }

  lemma DigitsAreNotSpace(s: string)
    requires |s| > 0 && IsDigit(s[0])
    ensures TrimStart(s) == s
  {
    assert !IsJsSpace(s[0]);
  }

  /** Printed digits parse as themselves. */
  lemma ParseUnsignedOfNatText(m: nat)
    ensures ParseUnsigned(NatText(m)) == Int(m)
  {
    var digits := NatText(m);
    NatTextValue(m);
    NatTextLeadingDigit(m);
    assert DigitRun(digits, 10) == |digits|;
    assert digits[..|digits|] == digits;
  }

  lemma ParseIntOfNegative(m: nat)
    requires m > 0
    ensures ParseInt("-" + NatText(m)) == Int(0 - m)
  {
    var digits := NatText(m);
    ParseUnsignedOfNatText(m);
    var s := "-" + digits;
    assert s[0] == '-';
    assert TrimStart(s) == s;
    assert s[1..] == digits;
  }

  lemma ParseIntOfNonNegative(m: nat)
    ensures ParseInt(NatText(m)) == Int(m)
  {
    var digits := NatText(m);
    ParseUnsignedOfNatText(m);
    DigitsAreNotSpace(digits);
    assert digits[0] != '-' && digits[0] != '+';
  }

  /** parseInt reads back every integer JavaScript or PHP prints. */
  lemma ParseIntOfIntText(i: int)
    ensures ParseInt(IntText(i)) == Int(i)
  {
    if i < 0 {
      var m: nat := -i;
      ParseIntOfNegative(m);
      assert IntText(i) == "-" + NatText(m);
    } else {
      ParseIntOfNonNegative(i);
      assert IntText(i) == NatText(i);
    }
  }

  /** A string without any digit parses to NaN. */
  lemma ParseIntNoDigits(s: string)
    requires forall i :: 0 <= i < |s| ==> !IsDigit(s[i])
    ensures ParseInt(s) == NaN
  {
    var t := TrimStart(s);
    var u := if |t| > 0 && (t[0] == '-' || t[0] == '+') then t[1..] else t;
    assert |u| > 0 ==> u[0] == s[|s| - |u|];
    NoLeadingDigit(u);
  }

  /** Without a leading digit there is nothing to read. */
  lemma NoLeadingDigit(u: string)
    requires |u| > 0 ==> !IsDigit(u[0])
    ensures ParseUnsigned(u) == NaN
  {
    if |u| > 0 {
      assert DigitValue(u[0]) >= 10;
    }
  }

  /* ----------------------------------------------------------------------
   * PHP trim and string truthiness
   * ---------------------------------------------------------------------- */

  /** The characters PHP's trim strips by default: space, tab, LF, CR, NUL, vertical tab. */
  predicate IsPhpSpace(ch: char) {
    ch == ' ' || ch == '\t' || ch == '\n' || ch == '\r' || ch == '\0' || ch == '\U{000B}'
  }

  function TrimLeft(s: string): (r: string)
    ensures |r| <= |s| && r == s[|s| - |r|..]
    ensures forall i :: 0 <= i < |s| - |r| ==> IsPhpSpace(s[i])
    ensures |r| > 0 ==> !IsPhpSpace(r[0])
    decreases |s|
  {
    if |s| > 0 && IsPhpSpace(s[0]) then TrimLeft(s[1..]) else s
  }

  function TrimRight(s: string): (r: string)
    ensures |r| <= |s| && r == s[..|r|]
    ensures forall i :: |r| <= i < |s| ==> IsPhpSpace(s[i])
    ensures |r| > 0 ==> !IsPhpSpace(r[|r| - 1])
    decreases |s|
  {
    if |s| > 0 && IsPhpSpace(s[|s| - 1]) then TrimRight(s[..|s| - 1]) else s
  }

  /** PHP trim(s): white space removed from both ends. */
  function PhpTrim(s: string): (r: string) {
    TrimRight(TrimLeft(s))
  }

  /** trim leaves nothing exactly when the string is all white space. */
  lemma PhpTrimEmpty(s: string)
    ensures PhpTrim(s) == "" <==> forall i :: 0 <= i < |s| ==> IsPhpSpace(s[i])
  {
    var l := TrimLeft(s);
    if PhpTrim(s) == "" {
      assert |l| == 0;
    } else {
      var r := PhpTrim(s);
      assert !IsPhpSpace(r[0]);
      assert r[0] == s[|s| - |l|];
    }
  }

  /** PHP truthiness of a string: everything but "" and "0". */
  predicate PhpTruthy(s: string) {
    s != "" && s != "0"
  }

  /* ----------------------------------------------------------------------
   * ASCII case folding (JavaScript toLowerCase on ASCII, PHP strtolower)
   * ---------------------------------------------------------------------- */

  function LowerChar(ch: char): char {
    if 'A' <= ch <= 'Z' then (ch as int + 32) as char else ch
  }

  function AsciiLower(s: string): (r: string)
    ensures |r| == |s|
  {
    seq(|s|, i requires 0 <= i < |s| => LowerChar(s[i]))
  }

  /** Case folding is idempotent and fixes every string without upper-case letters. */
  lemma AsciiLowerIdempotent(s: string)
    ensures AsciiLower(AsciiLower(s)) == AsciiLower(s)
    ensures (forall i :: 0 <= i < |s| ==> !('A' <= s[i] <= 'Z')) ==> AsciiLower(s) == s
  {
  }
}

=== FILE: tracklib.dfy ===
/**
 * The small helpers of tracklib that the recorder relies on: event
 * normalisation (TrackLib.Events.fix), the attribute map of an event target
 * (TrackLib.Util.serializeAttrs), the domain comparison
 * (TrackLib.Util.sameDomain) and the page size (TrackLib.Dimension.getPageSize).
 */
module TrackLib {
  import opened Wrappers
  import opened Dom
  import opened XPath

  /* ----------------------------------------------------------------------
   * Events
   * ---------------------------------------------------------------------- */

  /** What an event can be dispatched on: the window, or a node of the page's document. */
  datatype Target = Window | NodeAt(path: Path)

  /**
   * The event fields the recorder reads. `None` stands for a property that
   * is undefined. Touch points are events too: they carry a target, an
   * identifier and coordinates, and the touch handler gives them a type.
   */
  datatype Event = Event(
    eventType: string,
    target: Option<Target>,
    srcElement: Option<Target>,
    identifier: Option<int>,
    id: Option<int>,
    metaKey: Option<bool>,
    ctrlKey: Option<bool>,
    pageX: Option<int>,
    pageY: Option<int>,
    clientX: Option<int>,
    clientY: Option<int>,
    changedTouches: Option<seq<Event>>)

  /** The document the page shows, with the target addresses valid in it. */
  predicate TargetIn(doc: Node, t: Target) {
    t.NodeAt? ==> Valid(doc, t.path)
  }

  predicate EventIn(doc: Node, e: Event) {
    && (e.target.Some? ==> TargetIn(doc, e.target.value))
    && (e.srcElement.Some? ==> TargetIn(doc, e.srcElement.value))
  }

  /** A JavaScript number is truthy unless it is 0 (or undefined). */
  predicate Truthy(n: Option<int>) {
    n.Some? && n.value != 0
  }

  /**
   * Events.fix: a missing target falls back to srcElement and then to the
   * document; a text-node target is replaced by its parent; an undefined
   * metaKey is copied from ctrlKey; `id` becomes the touch identifier, or 0
   * when that is falsy.
   */
  function Fix(doc: Node, e: Event): (r: Event)
    requires doc.Document? && EventIn(doc, e)
    ensures EventIn(doc, r) && r.target.Some?
    ensures r.id == Some(if Truthy(e.identifier) then e.identifier.value else 0)
    ensures r.target.value.NodeAt? ==> !At(doc, r.target.value.path).Text?
    ensures r.metaKey == (if e.metaKey.Some? then e.metaKey else e.ctrlKey)
    ensures r.eventType == e.eventType && r.changedTouches == e.changedTouches
    ensures r.pageX == e.pageX && r.pageY == e.pageY && r.clientX == e.clientX && r.clientY == e.clientY
    ensures r.srcElement == e.srcElement && r.identifier == e.identifier && r.ctrlKey == e.ctrlKey
  {
    var t0 := if e.target.Some? then e.target.value
              else if e.srcElement.Some? then e.srcElement.value
              else NodeAt([]);
    var t := if t0.NodeAt? && At(doc, t0.path).Text? then TextParent(doc, t0.path); NodeAt(Parent(t0.path)) else t0;
    e.(target := Some(t),
       metaKey := if e.metaKey.Some? then e.metaKey else e.ctrlKey,
       id := Some(if Truthy(e.identifier) then e.identifier.value else 0))
  }

  /**
   * A text node is never the root of a document and never a parent, so its
   * parent exists and is not text.
   */
  lemma TextParent(doc: Node, p: Path)
    requires doc.Document? && Valid(doc, p) && At(doc, p).Text?
    ensures |p| > 0 && Valid(doc, Parent(p)) && !At(doc, Parent(p)).Text?
  {
    if |p| > 0 {
      ParentAt(doc, p);
    }
  }

  /** Fixing an event twice is the same as fixing it once. */
  lemma FixIdempotent(doc: Node, e: Event)
    requires doc.Document? && EventIn(doc, e)
    ensures Fix(doc, Fix(doc, e)) == Fix(doc, e)
  {
  }

  /** A target that is not a text node is kept as it is. */
  lemma FixKeepsTarget(doc: Node, e: Event, t: Target)
    requires doc.Document? && EventIn(doc, e)
    requires e.target == Some(t) && !(t.NodeAt? && At(doc, t.path).Text?)
    ensures Fix(doc, e).target == Some(t)
  {
  }

  /** A text target is replaced by the element or document that contains it. */
  lemma FixTextTarget(doc: Node, e: Event, p: Path)
    requires doc.Document? && EventIn(doc, e)
    requires e.target == Some(NodeAt(p)) && At(doc, p).Text?
    ensures |p| > 0 && Fix(doc, e).target == Some(NodeAt(Parent(p)))
    ensures Valid(doc, Parent(p)) && Last(p) < |Kids(At(doc, Parent(p)))|
    ensures Kids(At(doc, Parent(p)))[Last(p)] == At(doc, p)
  {
    TextParent(doc, p);
    ParentAt(doc, p);
  }

  /** Without a target, the event's srcElement takes its place. */
  lemma FixSrcElement(doc: Node, e: Event, t: Target)
    requires doc.Document? && EventIn(doc, e)
    requires e.target.None? && e.srcElement == Some(t) && !(t.NodeAt? && At(doc, t.path).Text?)
    ensures Fix(doc, e).target == Some(t)
  {
  }

  /** Without a target or a srcElement, the event is taken to be on the document. */
  lemma FixNoTarget(doc: Node, e: Event)
    requires doc.Document? && EventIn(doc, e)
    requires e.target.None? && e.srcElement.None?
    ensures Fix(doc, e).target == Some(NodeAt([])) && At(doc, []) == doc
  {
  }

  /* ----------------------------------------------------------------------
   * Attributes
   * ---------------------------------------------------------------------- */

  /** The attribute `name` is set by the markup at position `i`. */
  predicate SetAt(attrs: seq<Attr>, i: int, name: string) {
    0 <= i < |attrs| && attrs[i].specified && attrs[i].name == name
  }

  /** Position `i` holds the last specified attribute called `name`. */
  predicate LastSetAt(attrs: seq<Attr>, i: int, name: string) {
    SetAt(attrs, i, name) && forall j :: i < j < |attrs| ==> !SetAt(attrs, j, name)
  }

  /**
   * The loop of serializeAttrs: each specified attribute in turn is written
   * into the object, so a later one with the same name overwrites an
   * earlier one.
   */
  function AttrMap(attrs: seq<Attr>): (r: map<string, string>)
    decreases |attrs|
  {
    if |attrs| == 0 then map[]
    else
      var a := attrs[|attrs| - 1];
      if a.specified then AttrMap(attrs[..|attrs| - 1])[a.name := a.value] else AttrMap(attrs[..|attrs| - 1])
  }

  /**
   * The object holds exactly the names of the specified attributes, each
   * with the value of the last specified attribute of that name.
   */
  lemma {:induction false} AttrMapSpec(attrs: seq<Attr>)
    ensures forall k :: k in AttrMap(attrs) <==> exists i :: SetAt(attrs, i, k)
    ensures forall k :: k in AttrMap(attrs) ==> exists i :: LastSetAt(attrs, i, k) && attrs[i].value == AttrMap(attrs)[k]
    decreases |attrs|
  {
    if |attrs| > 0 {
      var n := |attrs| - 1;
      var init := attrs[..n];
      var a := attrs[n];
      AttrMapSpec(init);
      forall k
        ensures k in AttrMap(attrs) <==> exists i :: SetAt(attrs, i, k)
        ensures k in AttrMap(attrs) ==> exists i :: LastSetAt(attrs, i, k) && attrs[i].value == AttrMap(attrs)[k]
      {
        if a.specified && a.name == k {
          assert LastSetAt(attrs, n, k);
        } else {
          assert !SetAt(attrs, n, k);
          assert AttrMap(attrs) == (if a.specified then AttrMap(init)[a.name := a.value] else AttrMap(init));
          if exists i :: SetAt(attrs, i, k) {
            var i :| SetAt(attrs, i, k);
            assert SetAt(init, i, k);
          }
          if exists i :: SetAt(init, i, k) {
            var i :| SetAt(init, i, k);
            assert SetAt(attrs, i, k);
          }
          if k in AttrMap(attrs) {
            var i :| LastSetAt(init, i, k) && init[i].value == AttrMap(init)[k];
            forall j | i < j < |attrs|
              ensures !SetAt(attrs, j, k)
            {
              if j < n {
                assert !SetAt(init, j, k);
              }
            }
            assert LastSetAt(attrs, i, k);
          }
        }
      }
    }
  }

  /**
   * serializeAttrs, before JSON.stringify: nothing for a target without an
   * attribute collection (the window, the document, text), otherwise one
   * entry under the element's name holding its specified attributes (an
   * element without any still gets its entry, mapped to an empty object).
   */
  function SerializeAttrs(doc: Node, t: Target): (r: map<string, map<string, string>>)
    requires TargetIn(doc, t)
    ensures |r| <= 1
    ensures r == map[] <==> !(t.NodeAt? && At(doc, t.path).Element?)
    ensures t.NodeAt? && At(doc, t.path).Element? ==>
      var n := At(doc, t.path);
      && r.Keys == {n.tagName}
      && (forall k :: k in r[n.tagName] <==> exists i :: SetAt(n.attrs, i, k))
      && (forall k :: k in r[n.tagName] ==> exists i :: LastSetAt(n.attrs, i, k) && n.attrs[i].value == r[n.tagName][k])
  {
    if t.NodeAt? && At(doc, t.path).Element? then
      var n := At(doc, t.path);
      AttrMapSpec(n.attrs);
      map[n.tagName := AttrMap(n.attrs)]
    else map[]
  }

  /** With attribute names unique, as in any DOM element, each specified attribute appears with its value. */
  lemma AttrMapUnique(attrs: seq<Attr>, i: nat)
    requires i < |attrs| && attrs[i].specified
    requires forall j, k :: 0 <= j < k < |attrs| ==> attrs[j].name != attrs[k].name
    ensures attrs[i].name in AttrMap(attrs) && AttrMap(attrs)[attrs[i].name] == attrs[i].value
  {
    var k := attrs[i].name;
    AttrMapSpec(attrs);
    assert SetAt(attrs, i, k);
    assert k in AttrMap(attrs);
    var j :| LastSetAt(attrs, j, k) && attrs[j].value == AttrMap(attrs)[k];
    assert attrs[j].name == k;
    assert j == i;
  }

  /* ----------------------------------------------------------------------
   * Domains and dimensions
   * ---------------------------------------------------------------------- */

  /**
   * sameDomain(urls...): the flag is overwritten on every step after the
   * first, so only the last two URLs decide it. `getDomain` stands for the
   * host-name lookup the browser performs.
   */
  method SameDomain(urls: seq<string>, getDomain: string -> string) returns (same: bool)
    ensures |urls| < 2 ==> same
    ensures |urls| >= 2 ==> (same <==> getDomain(urls[|urls| - 2]) == getDomain(urls[|urls| - 1]))
  {
    var prev := "";
    same := true;
    var i := 0;
    while i < |urls|
      invariant 0 <= i <= |urls|
      invariant i > 0 ==> prev == urls[i - 1]
      invariant i < 2 ==> same
      invariant i >= 2 ==> (same <==> getDomain(urls[i - 2]) == getDomain(urls[i - 1]))
    {
      if i > 0 {
        same := getDomain(prev) == getDomain(urls[i]);
      }
      prev := urls[i];
      i := i + 1;
    }
  }

  datatype Size = Size(width: int, height: int)

  /** getPageSize: the larger of the viewport and the document, in each dimension separately. */
  function PageSize(win: Size, doc: Size): (r: Size)
    ensures r.width >= win.width && r.width >= doc.width
    ensures r.width == win.width || r.width == doc.width
    ensures r.height >= win.height && r.height >= doc.height
    ensures r.height == win.height || r.height == doc.height
  {
    Size(if doc.width < win.width then win.width else doc.width,
         if doc.height < win.height then win.height else doc.height)
  }
}

=== FILE: trackui.dfy ===
/**
 * The recording session of trackui: settings, the user id the server
 * assigned, the time of the last recorded event and the buffer of log lines
 * not yet sent. Every handler is a transition on that state; the clock,
 * the page and the browser's sizes are inputs, and the requests the
 * session sends are returned values.
 */
module TrackUI {
  import opened Wrappers
  import opened Text
  import opened Dom
  import opened XPath
  import opened TrackLib

  /* ----------------------------------------------------------------------
   * Settings
   * ---------------------------------------------------------------------- */

  /** The JavaScript values a setting can be given. */
  datatype Value = Null | Undefined | Num(n: int) | Str(s: string) | Bool(b: bool)

  /** String(v), as string concatenation converts a value. */
  function ValueText(v: Value): string {
    match v
    case Null => "null"
    case Undefined => "undefined"
    case Num(n) => IntText(n)
    case Str(s) => s
    case Bool(b) => if b then "true" else "false"
  }

  type Settings = map<string, Value>

  /** The default settings, keyed by property name. */
  function DefaultSettings(): (r: Settings)
    ensures r.Keys == {"postServer", "postInterval", "pollingMs", "taskName", "layoutType"}
    ensures r["pollingMs"] == Num(150) && r["postInterval"] == Num(30)
  {
    map["postServer" := Str("http://my.server.org/save.script"),
        "postInterval" := Num(30),
        "pollingMs" := Num(150),
        "taskName" := Str("evtrack"),
        "layoutType" := Str("liquid")]
  }

  /** Reading a property: a missing one is undefined. */
  function Get(settings: Settings, key: string): Value {
    if key in settings then settings[key] else Undefined
  }

  /** A config entry overrides a setting when it is present and not null. */
  predicate Overrides(config: map<string, Value>, key: string) {
    key in config && config[key] != Null
  }

  /**
   * The settings merge of record(config): every known setting that the
   * config gives a non-null value takes that value; the rest keep theirs,
   * and config keys that are not settings are ignored.
   */
  function Record(settings: Settings, config: map<string, Value>): (r: Settings)
    ensures r.Keys == settings.Keys
    ensures forall k :: k in settings && Overrides(config, k) ==> r[k] == config[k]
    ensures forall k :: k in settings && !Overrides(config, k) ==> r[k] == settings[k]
  {
    map k | k in settings :: if Overrides(config, k) then config[k] else settings[k]
  }

  /** Recording twice with the same config is the same as recording once. */
  lemma RecordIdempotent(settings: Settings, config: map<string, Value>)
    ensures Record(Record(settings, config), config) == Record(settings, config)
  {
  }

  /** Config keys that are not settings have no effect. */
  lemma RecordIgnoresUnknown(settings: Settings, config: map<string, Value>, key: string, v: Value)
    requires key !in settings
    ensures Record(settings, config[key := v]) == Record(settings, config)
  {
  }

  /** A null in the config never replaces a setting. */
  lemma RecordNullKeeps(settings: Settings, config: map<string, Value>, key: string)
    requires key in settings
    ensures Record(settings, config[key := Null])[key] == settings[key]
  {
  }

  /* ----------------------------------------------------------------------
   * The session
   * ---------------------------------------------------------------------- */

  /**
   * `uid` is what parseInt made of the server's answer (0 before any);
   * `time` is when the last event was recorded (the load time at first);
   * `info` holds the log lines not yet sent, oldest first.
   */
  datatype Session = Session(settings: Settings, uid: ParsedInt, time: int, info: seq<string>)

  function InitialSession(loadTime: int): (r: Session)
    ensures r.uid == Int(0) && !r.uid.IsTruthy() && r.info == [] && r.time == loadTime
  {
    Session(DefaultSettings(), Int(0), loadTime, [])
  }

  /**
   * The throttle of eventHandler: with a positive pollingMs an event is
   * recorded only when at least that many milliseconds have passed since
   * the last recorded one; otherwise every event is. The clock is shared by
   * every kind of event.
   */
  function ShouldRecord(settings: Settings, last: int, now: int): (register: bool)
    ensures Get(settings, "pollingMs").Num? && Get(settings, "pollingMs").n > 0 ==>
      (register <==> now - last >= Get(settings, "pollingMs").n)
    ensures !(Get(settings, "pollingMs").Num? && Get(settings, "pollingMs").n > 0) ==> register
  {
    match Get(settings, "pollingMs")
    case Num(ms) => if ms > 0 then now - last >= ms else true
    case _ => true
  }

  /** A pollingMs of 0 records every event. */
  lemma NoThrottle(s: Session, now: int)
    requires Get(s.settings, "pollingMs") == Num(0)
    ensures ShouldRecord(s.settings, s.time, now)
  {
  }

  /**
   * Under the default settings, or after a record(config) that leaves
   * pollingMs alone, an event is kept exactly when 150 ms or more have
   * passed since the last recorded one: 149 ms later it is dropped, 150 ms
   * later it is kept.
   */
  lemma DefaultThrottle(config: map<string, Value>, last: int, now: int)
    requires !Overrides(config, "pollingMs")
    ensures ShouldRecord(Record(DefaultSettings(), config), last, now) <==> now - last >= 150
    ensures !ShouldRecord(Record(DefaultSettings(), config), last, last + 149)
    ensures ShouldRecord(Record(DefaultSettings(), config), last, last + 150)
  {
    assert Record(DefaultSettings(), config)["pollingMs"] == Num(150);
  }

  /* ----------------------------------------------------------------------
   * Cursor position
   * ---------------------------------------------------------------------- */

  /** Scroll offsets of document.body and document.documentElement. */
  datatype Scroll = Scroll(bodyLeft: int, bodyTop: int, rootLeft: int, rootTop: int)

  datatype Point = Point(x: int, y: int)

  /** Adding to an undefined coordinate gives NaN, written None. */
  function Plus(a: Option<int>, b: int): Option<int> {
    if a.Some? then Some(a.value + b) else None
  }

  /** A falsy or negative coordinate becomes 0. */
  function Clamp(c: Option<int>): (r: nat)
    ensures Truthy(c) && c.value > 0 ==> r == c.value
    ensures !(Truthy(c) && c.value > 0) ==> r == 0
  {
    if !Truthy(c) || c.value < 0 then 0 else c.value
  }

  /**
   * getMousePos: page coordinates when either is non-zero, otherwise client
   * coordinates moved by the scroll offsets when either of those is
   * non-zero, otherwise the origin; falsy or negative results become 0.
   */
  function MousePos(e: Event, sc: Scroll): (r: Point)
    ensures r.x >= 0 && r.y >= 0
    ensures Truthy(e.pageX) || Truthy(e.pageY) ==> r == Point(Clamp(e.pageX), Clamp(e.pageY))
    ensures !(Truthy(e.pageX) || Truthy(e.pageY)) && (Truthy(e.clientX) || Truthy(e.clientY)) ==>
      r == Point(Clamp(Plus(e.clientX, sc.bodyLeft + sc.rootLeft)), Clamp(Plus(e.clientY, sc.bodyTop + sc.rootTop)))
    ensures !(Truthy(e.pageX) || Truthy(e.pageY) || Truthy(e.clientX) || Truthy(e.clientY)) ==> r == Point(0, 0)
  {
    var c :=
      if Truthy(e.pageX) || Truthy(e.pageY) then (e.pageX, e.pageY)
      else if Truthy(e.clientX) || Truthy(e.clientY) then
        (Plus(e.clientX, sc.bodyLeft + sc.rootLeft), Plus(e.clientY, sc.bodyTop + sc.rootTop))
      else (Some(0), Some(0));
    Point(Clamp(c.0), Clamp(c.1))
  }

  /* ----------------------------------------------------------------------
   * Recording events
   * ---------------------------------------------------------------------- */

  /**
   * The page the recorder runs in: its document, whether that is an HTML
   * document (tag names are then lower-cased), and the scroll offsets.
   */
  datatype Page = Page(doc: Node, isHtml: bool, scroll: Scroll)

  predicate PageOk(page: Page) {
    page.doc.Document?
  }

  /** fillInfo: the seven fields joined by single spaces. */
  function Entry(id: int, time: int, x: int, y: int, eventType: string, xpath: string, attrs: string): string {
    Join(" ", [IntText(id), IntText(time), IntText(x), IntText(y), eventType, xpath, attrs])
  }

  /** The location path of a fixed event's target: the window has none and renders as "/". */
  function TargetXPath(page: Page, t: Target): Result<string>
    requires TargetIn(page.doc, t)
  {
    match t
    case Window => Ok("/")
    case NodeAt(p) => GetXPath(page.doc, p, page.isHtml)
  }

  /** What an event handler leaves behind: the new session, and the message if it threw. */
  datatype Outcome = Outcome(session: Session, thrown: Option<string>)

  /**
   * eventHandler(e) at time `now`. `stringify` stands for JSON.stringify.
   * A throw while computing the location path leaves the session as it was.
   */
  function EventHandler(s: Session, page: Page, stringify: map<string, map<string, string>> -> string,
                        e: Event, now: int): (r: Outcome)
    requires PageOk(page) && EventIn(page.doc, e)
    ensures !ShouldRecord(s.settings, s.time, now) ==> r == Outcome(s, None)
    ensures r.thrown.Some? ==> r.session == s
    ensures r.thrown.None? && ShouldRecord(s.settings, s.time, now) ==>
      && r.session.settings == s.settings && r.session.uid == s.uid
      && r.session.time == now
      && |r.session.info| == |s.info| + 1
      && r.session.info[..|s.info|] == s.info
    ensures r.thrown.None? && !ShouldRecord(s.settings, s.time, now) ==> r.session == s
  {
    var f := Fix(page.doc, e);
    if !ShouldRecord(s.settings, s.time, now) then Outcome(s, None)
    else
      var t := f.target.value;
      var pos := MousePos(Fix(page.doc, f), page.scroll);
      match TargetXPath(page, t)
      case Err(msg) => Outcome(s, Some(msg))
      case Ok(xpath) =>
        var line := Entry(f.id.value, now, pos.x, pos.y, f.eventType, xpath, stringify(SerializeAttrs(page.doc, t)));
        Outcome(s.(info := s.info + [line], time := now), None)
  }

  /** The recorded line: the fixed event's id, the time, the cursor, the type, the path and the attributes. */
  lemma EventHandlerLine(s: Session, page: Page, stringify: map<string, map<string, string>> -> string, e: Event, now: int)
    requires PageOk(page) && EventIn(page.doc, e)
    requires ShouldRecord(s.settings, s.time, now)
    ensures var f := Fix(page.doc, e);
      var pos := MousePos(e, page.scroll);
      match TargetXPath(page, f.target.value)
      case Err(msg) => EventHandler(s, page, stringify, e, now) == Outcome(s, Some(msg))
      case Ok(xpath) =>
        EventHandler(s, page, stringify, e, now).session.info
        == s.info + [Entry(if Truthy(e.identifier) then e.identifier.value else 0, now, pos.x, pos.y,
                           e.eventType, xpath, stringify(SerializeAttrs(page.doc, f.target.value)))]
  {
    var f := Fix(page.doc, e);
    FixIdempotent(page.doc, e);
    assert MousePos(Fix(page.doc, f), page.scroll) == MousePos(e, page.scroll);
  }

  /** Window events (blur, focus, resize) are logged with the path "/" and no attributes. */
  lemma WindowEvent(s: Session, page: Page, stringify: map<string, map<string, string>> -> string, e: Event, now: int)
    requires PageOk(page) && EventIn(page.doc, e) && e.target == Some(Window)
    requires ShouldRecord(s.settings, s.time, now)
    ensures var pos := MousePos(e, page.scroll);
      EventHandler(s, page, stringify, e, now).session.info
        == s.info + [Entry(if Truthy(e.identifier) then e.identifier.value else 0, now, pos.x, pos.y,
                           e.eventType, "/", stringify(map[]))]
  {
    EventHandlerLine(s, page, stringify, e, now);
  }

  /**
   * The line splits back into its seven fields as long as the type, the
   * path and the attribute text have no spaces.
   */
  lemma {:induction false} EntryFields(id: int, time: int, x: int, y: int, eventType: string, xpath: string, attrs: string)
    requires ' ' !in eventType && ' ' !in xpath && ' ' !in attrs
    ensures Split(Entry(id, time, x, y, eventType, xpath, attrs), ' ')
         == [IntText(id), IntText(time), IntText(x), IntText(y), eventType, xpath, attrs]
  {
    var fields := [IntText(id), IntText(time), IntText(x), IntText(y), eventType, xpath, attrs];
    IntTextNoSpace(id);
    IntTextNoSpace(time);
    IntTextNoSpace(x);
    IntTextNoSpace(y);
    SplitJoin(fields, ' ');
  }

  lemma IntTextNoSpace(i: int)
    ensures ' ' !in IntText(i)
  {
    if i < 0 {
      var t := IntText(i);
      assert forall k :: 1 <= k < |t| ==> t[k] == NatText(-i)[k - 1];
    }
  }

  /**
   * Two events share one clock whatever their kinds: after a recorded event
   * at t1, an event at t2 is recorded exactly when the throttle allows
   * t2 - t1.
   */
  lemma SharedClock(s: Session, page: Page, stringify: map<string, map<string, string>> -> string,
                    e1: Event, t1: int, e2: Event, t2: int, ms: int)
    requires PageOk(page) && EventIn(page.doc, e1) && EventIn(page.doc, e2)
    requires Get(s.settings, "pollingMs") == Num(ms) && ms > 0
    requires EventHandler(s, page, stringify, e1, t1).thrown.None?
    requires ShouldRecord(s.settings, s.time, t1)
    ensures var s1 := EventHandler(s, page, stringify, e1, t1).session;
      && s1.time == t1
      && (ShouldRecord(s1.settings, s1.time, t2) <==> t2 - t1 >= ms)
  {
  }

  /* ----------------------------------------------------------------------
   * Touch events
   * ---------------------------------------------------------------------- */

  predicate TouchesIn(doc: Node, ts: seq<Event>) {
    forall i :: 0 <= i < |ts| ==> EventIn(doc, ts[i])
  }

  /**
   * The loop of touchHandler as a fold: each changed touch, given the
   * parent event's type, goes through eventHandler in order at its own
   * clock reading; a throw ends the loop and keeps what was recorded so far.
   */
  function TouchFold(s: Session, page: Page, stringify: map<string, map<string, string>> -> string,
                     ts: seq<Event>, eventType: string, clock: seq<int>): (r: Outcome)
    requires PageOk(page) && TouchesIn(page.doc, ts) && |clock| >= |ts|
    decreases |ts|
  {
    if |ts| == 0 then Outcome(s, None)
    else
      var o := EventHandler(s, page, stringify, ts[0].(eventType := eventType), clock[0]);
      if o.thrown.Some? then o
      else TouchFold(o.session, page, stringify, ts[1..], eventType, clock[1..])
  }

  /** The number of changed touches, 0 when there is no list. */
  function TouchCount(e: Event): nat {
    if e.changedTouches.Some? then |e.changedTouches.value| else 0
  }

  /** touchHandler(e), reading the clock once per changed touch. */
  method TouchHandler(s: Session, page: Page, stringify: map<string, map<string, string>> -> string,
                      e: Event, clock: seq<int>) returns (r: Outcome)
    requires PageOk(page) && EventIn(page.doc, e)
    requires e.changedTouches.Some? ==> TouchesIn(page.doc, e.changedTouches.value)
    requires |clock| >= TouchCount(e)
    ensures e.changedTouches.None? ==> r == Outcome(s, None)
    ensures e.changedTouches.Some? ==> r == TouchFold(s, page, stringify, e.changedTouches.value, e.eventType, clock)
  {
    var f := Fix(page.doc, e);
    r := Outcome(s, None);
    if f.changedTouches.None? {
      return;
    }
    var ts := f.changedTouches.value;
    var i := 0;
    while i < |ts| && r.thrown.None?
      invariant 0 <= i <= |ts|
      invariant r.thrown.None? ==>
        TouchFold(s, page, stringify, ts, f.eventType, clock) == TouchFold(r.session, page, stringify, ts[i..], f.eventType, clock[i..])
      invariant r.thrown.Some? ==> r == TouchFold(s, page, stringify, ts, f.eventType, clock)
    {
      var touch := ts[i].(eventType := f.eventType);
      var o := EventHandler(r.session, page, stringify, touch, clock[i]);
      assert ts[i..][1..] == ts[i + 1..] && clock[i..][1..] == clock[i + 1..];
      r := o;
      i := i + 1;
    }
    if r.thrown.None? {
      assert ts[i..] == [];
    }
  }

  /** A touch event records at most one line per changed touch, and keeps the lines before it. */
  lemma {:induction false} TouchFoldGrows(s: Session, page: Page, stringify: map<string, map<string, string>> -> string,
                                          ts: seq<Event>, eventType: string, clock: seq<int>)
    requires PageOk(page) && TouchesIn(page.doc, ts) && |clock| >= |ts|
    ensures var r := TouchFold(s, page, stringify, ts, eventType, clock);
      && |s.info| <= |r.session.info| <= |s.info| + |ts|
      && r.session.info[..|s.info|] == s.info
    decreases |ts|
  {
    if |ts| > 0 {
      assert EventIn(page.doc, ts[0]);
      var o := EventHandler(s, page, stringify, ts[0].(eventType := eventType), clock[0]);
      assert |s.info| <= |o.session.info| <= |s.info| + 1 && o.session.info[..|s.info|] == s.info;
      if o.thrown.None? {
        assert TouchesIn(page.doc, ts[1..]) by {
          assert forall i :: 0 <= i < |ts[1..]| ==> ts[1..][i] == ts[i + 1];
        }
        TouchFoldGrows(o.session, page, stringify, ts[1..], eventType, clock[1..]);
        var r := TouchFold(o.session, page, stringify, ts[1..], eventType, clock[1..]);
        assert TouchFold(s, page, stringify, ts, eventType, clock) == r;
        assert r.session.info[..|s.info|] == r.session.info[..|o.session.info|][..|s.info|];
      } else {
        assert TouchFold(s, page, stringify, ts, eventType, clock) == o;
      }
    }
  }

  /**
   * With no throttle and a tree that cannot make the path throw, every
   * changed touch adds exactly one line.
   */
  lemma {:induction false} TouchFoldAll(s: Session, page: Page, stringify: map<string, map<string, string>> -> string,
                                        ts: seq<Event>, eventType: string, clock: seq<int>)
    requires PageOk(page) && WellFormed(page.doc) && TouchesIn(page.doc, ts) && |clock| >= |ts|
    requires Get(s.settings, "pollingMs") == Num(0)
    ensures var r := TouchFold(s, page, stringify, ts, eventType, clock);
      r.thrown.None? && |r.session.info| == |s.info| + |ts|
    decreases |ts|
  {
    if |ts| > 0 {
      var e := ts[0].(eventType := eventType);
      var f := Fix(page.doc, e);
      if f.target.value.NodeAt? {
        GetXPathOk(page.doc, f.target.value.path, page.isHtml);
      }
      var o := EventHandler(s, page, stringify, e, clock[0]);
      TouchFoldAll(o.session, page, stringify, ts[1..], eventType, clock[1..]);
    }
  }

  /**
   * Under a positive pollingMs, two touches read at the same instant
   * cannot both be recorded: the second falls inside the window the first
   * opened.
   */
  lemma SameInstantTouches(s: Session, page: Page, stringify: map<string, map<string, string>> -> string,
                           t1: Event, t2: Event, eventType: string, now: int, ms: int)
    requires PageOk(page) && EventIn(page.doc, t1) && EventIn(page.doc, t2)
    requires Get(s.settings, "pollingMs") == Num(ms) && ms > 0
    ensures |TouchFold(s, page, stringify, [t1, t2], eventType, [now, now]).session.info| <= |s.info| + 1
  {
    var o := EventHandler(s, page, stringify, t1.(eventType := eventType), now);
    assert [t1, t2][1..] == [t2] && [now, now][1..] == [now];
    assert [t2][1..] == [] && [now][1..] == [];
    if o.thrown.None? {
      var o2 := EventHandler(o.session, page, stringify, t2.(eventType := eventType), now);
      assert TouchFold(o.session, page, stringify, [t2], eventType, [now]).session == o2.session;
      if ShouldRecord(s.settings, s.time, now) {
        assert o.session.time == now && |o.session.info| == |s.info| + 1;
        assert o2.session == o.session;
      } else {
        assert o.session == s;
      }
    }
  }

  /* ----------------------------------------------------------------------
   * Sending
   * ---------------------------------------------------------------------- */

  /** What the browser reports about the page when the session data is initialised. */
  datatype Env = Env(escapedUrl: string, screenW: int, screenH: int, win: Size, doc: Size)

  /** An outgoing POST; `expectsUid` marks the init request, whose answer goes to setUserId. */
  datatype Request = Request(url: string, async: bool, body: string, expectsUid: bool)

  /** Each field written `key=value`. */
  function FormPieces(fields: seq<(string, string)>): (r: seq<string>)
    ensures |r| == |fields|
    ensures forall i :: 0 <= i < |fields| ==> r[i] == fields[i].0 + "=" + fields[i].1
  {
    seq(|fields|, i requires 0 <= i < |fields| => fields[i].0 + "=" + fields[i].1)
  }

  /** The pieces joined by `&`, exactly as the client concatenates them (values are not escaped). */
  function FormBody(fields: seq<(string, string)>): string {
    Join("&", FormPieces(fields))
  }

  /** "" + info: an array converts to its elements joined by commas. */
  function InfoText(info: seq<string>): string {
    Join(",", info)
  }

  function InitFields(s: Session, env: Env): seq<(string, string)> {
    [("url", env.escapedUrl),
     ("screenw", IntText(env.screenW)), ("screenh", IntText(env.screenH)),
     ("winw", IntText(env.win.width)), ("winh", IntText(env.win.height)),
     ("docw", IntText(env.doc.width)), ("doch", IntText(env.doc.height)),
     ("cookies", "undefined"),
     ("info", InfoText(s.info)),
     ("task", ValueText(Get(s.settings, "taskName"))),
     ("layout", ValueText(Get(s.settings, "layoutType"))),
     ("action", "init")]
  }

  function AppendFields(s: Session): seq<(string, string)> {
    [("uid", s.uid.Text()), ("info", InfoText(s.info)), ("action", "append")]
  }

  /**
   * initNewData(async): send the page description with the buffered lines
   * and empty the buffer, whether or not it held anything. The cookies
   * field reads a property the document-size object does not have.
   */
  function InitNewData(s: Session, env: Env, async: bool): (r: (Session, Request))
    ensures r.0 == s.(info := [])
    ensures r.1.expectsUid && r.1.async == async
    ensures r.1.url == ValueText(Get(s.settings, "postServer"))
    ensures r.1.body == FormBody(InitFields(s, env))
  {
    (s.(info := []), Request(ValueText(Get(s.settings, "postServer")), async, FormBody(InitFields(s, env)), true))
  }

  /** appendData(async): send the buffered lines under the current uid and empty the buffer. */
  function AppendData(s: Session, async: bool): (r: (Session, Request))
    ensures r.0 == s.(info := [])
    ensures !r.1.expectsUid && r.1.async == async
    ensures r.1.url == ValueText(Get(s.settings, "postServer"))
    ensures r.1.body == FormBody(AppendFields(s))
  {
    (s.(info := []), Request(ValueText(Get(s.settings, "postServer")), async, FormBody(AppendFields(s)), false))
  }

  /**
   * setUserId(response): the uid becomes parseInt of the answer, and the
   * periodic append starts only when that is truthy.
   */
  function SetUserId(s: Session, response: string): (r: (Session, bool))
    ensures r.0 == s.(uid := ParseInt(response))
    ensures r.1 <==> r.0.uid.IsTruthy()
  {
    var uid := ParseInt(response);
    (s.(uid := uid), uid.IsTruthy())
  }

  /** flush(): a synchronous append once a uid is held, a synchronous init otherwise. */
  function Flush(s: Session, env: Env): (r: (Session, Request))
    ensures r.0.info == [] && !r.1.async
    ensures s.uid.IsTruthy() <==> !r.1.expectsUid
    ensures s.uid.IsTruthy() ==> r == AppendData(s, false)
    ensures !s.uid.IsTruthy() ==> r == InitNewData(s, env, false)
  {
    if s.uid.IsTruthy() then AppendData(s, false) else InitNewData(s, env, false)
  }

  /** An answer naming a positive file id is adopted, and later flushes append under it. */
  lemma AdoptUid(s: Session, env: Env, fid: nat)
    requires fid > 0
    ensures var s1 := SetUserId(s, NatText(fid));
      && s1.0.uid == Int(fid) && s1.1
      && Flush(s1.0, env).1.body == FormBody([("uid", NatText(fid)), ("info", InfoText(s.info)), ("action", "append")])
  {
    ParseIntOfNonNegative(fid);
  }

  /** An answer of "0", or one without digits, leaves the uid falsy: the next flush initialises again. */
  lemma RejectedUid(s: Session, env: Env, response: string)
    requires response == "0" || forall i :: 0 <= i < |response| ==> !IsDigit(response[i])
    ensures !SetUserId(s, response).1
    ensures Flush(SetUserId(s, response).0, env).1.expectsUid
  {
    if response == "0" {
      ParseIntOfNonNegative(0);
      assert NatText(0) == "0";
    } else {
      ParseIntNoDigits(response);
    }
  }

  /** Sending with an empty buffer still sends: the info field is then empty. */
  lemma EmptyBatchSent(s: Session)
    requires s.info == []
    ensures AppendData(s, true).1.body == "uid=" + s.uid.Text() + "&" + "info=" + "&" + "action=append"
  {
    var fields := AppendFields(s);
    var parts := FormPieces(fields);
    assert InfoText([]) == "";
    assert "uid" + "=" == "uid=";
    assert parts[0] == "uid" + "=" + s.uid.Text();
    assert parts[1] == "info" + "=" + "" == "info=";
    assert parts[2] == "action" + "=" + "append" == "action=append";
    assert parts == ["uid=" + s.uid.Text(), "info=", "action=append"];
    Join3("&", "uid=" + s.uid.Text(), "info=", "action=append");
  }

  /**
   * A fresh session holds no uid: leaving the page before the first init
   * answer sends a synchronous init to the default server, carrying an empty
   * info field and the default task and layout. Its throttle clock starts
   * at the load time, so no event in the first 150 ms after loading is
   * recorded.
   */
  lemma FreshSession(loadTime: int, env: Env, now: int)
    ensures var s := InitialSession(loadTime);
      var r := Flush(s, env);
      && r.1.expectsUid && !r.1.async && r.1.url == "http://my.server.org/save.script"
      && r.1.body == FormBody(InitFields(s, env))
      && InitFields(s, env)[8] == ("info", "")
      && InitFields(s, env)[9] == ("task", "evtrack")
      && InitFields(s, env)[10] == ("layout", "liquid")
      && r.0.uid == Int(0) && r.0.info == []
    ensures var s := InitialSession(loadTime);
      ShouldRecord(s.settings, s.time, now) <==> now - loadTime >= 150
  {
    var s := InitialSession(loadTime);
    assert InfoText([]) == "";
    DefaultThrottle(map[], loadTime, now);
    assert Record(DefaultSettings(), map[]) == DefaultSettings();
  }
}

=== FILE: wrappers.dfy ===
/** Optional values and results that may carry the message of a thrown exception. */
module Wrappers {

  datatype Option<+T> = None | Some(value: T) {

    /** The value, or `default` when there is none. */
    function GetOr(default: T): T {
      match this
      case Some(v) => v
      case None => default
    }
  }

  /** `Err` carries the message a JavaScript `throw` (or a TypeError) would raise. */
  datatype Result<+T> = Ok(value: T) | Err(message: string)
}

=== FILE: xpath.dfy ===
/**
 * The location path tracklib computes for an event target
 * (TrackLib.XPath.getXPath and its helpers): the chain of element and text
 * nodes from the nearest ancestor-or-self with an `id` (or from the topmost
 * element) down to the target, rendered in the abbreviated syntax of
 * XPath 1.0 (section 2.5 of the W3C XPath 1.0 recommendation).
 */
module XPath {
  import opened Wrappers
  import opened Text
  import opened Dom

  /* ----------------------------------------------------------------------
   * Sibling lists and positional indices
   * ---------------------------------------------------------------------- */

  /** Which siblings a positional index counts. */
  datatype Match = SameTag(tag: string) | AnyText

  /**
   * getChildNodesWithTagName keeps children whose tagName is truthy (so
   * non-empty, and only elements have one) and equal to the tag;
   * getChildTextNodes keeps children of nodeType 3.
   */
  predicate Matches(n: Node, m: Match) {
    match m
    case SameTag(tag) => n.Element? && n.tagName != "" && n.tagName == tag
    case AnyText => n.Text?
  }

  /** The indices of the children matching `m`, in document order. */
  function Select(kids: seq<Node>, m: Match): (r: seq<nat>)
    ensures forall i :: 0 <= i < |r| ==> r[i] < |kids| && Matches(kids[r[i]], m)
    ensures forall j :: 0 <= j < |kids| && Matches(kids[j], m) ==> j in r
    ensures forall i, j :: 0 <= i < j < |r| ==> r[i] < r[j]
    decreases |kids|
  {
    if |kids| == 0 then []
    else
      var init := Select(kids[..|kids| - 1], m);
      if Matches(kids[|kids| - 1], m) then init + [|kids| - 1] else init
  }

  /** No child has an empty tag name, in the sense of getChildNodesWithTagName. */
  lemma {:induction false} SelectEmptyTag(kids: seq<Node>)
    ensures Select(kids, SameTag("")) == []
    decreases |kids|
  {
    if |kids| > 0 {
      SelectEmptyTag(kids[..|kids| - 1]);
    }
  }

  /** getChildNodesWithTagName(parent, tag) */
  function ChildNodesWithTagName(parent: Node, tag: string): seq<nat> {
    Select(Kids(parent), SameTag(tag))
  }

  /** getChildTextNodes(parent) */
  function ChildTextNodes(parent: Node): seq<nat> {
    Select(Kids(parent), AnyText)
  }

  /** How many of `kids` match `m`, counted from the front. */
  function Count(kids: seq<Node>, m: Match): nat
    decreases |kids|
  {
    if |kids| == 0 then 0 else (if Matches(kids[0], m) then 1 else 0) + Count(kids[1..], m)
  }

  lemma {:induction false} CountSnoc(kids: seq<Node>, m: Match)
    requires |kids| > 0
    ensures Count(kids, m) == Count(kids[..|kids| - 1], m) + (if Matches(kids[|kids| - 1], m) then 1 else 0)
    decreases |kids|
  {
    if |kids| > 1 {
      CountSnoc(kids[1..], m);
      assert kids[1..][..|kids| - 2] == kids[..|kids| - 1][1..];
    }
  }

  /** The selected list has one entry per matching child. */
  lemma {:induction false} SelectCount(kids: seq<Node>, m: Match)
    ensures |Select(kids, m)| == Count(kids, m)
    decreases |kids|
  {
    if |kids| > 0 {
      SelectCount(kids[..|kids| - 1], m);
      CountSnoc(kids, m);
    }
  }

  /** Selecting from a prefix of the children gives a prefix of the selection. */
  lemma {:induction false} SelectPrefix(kids: seq<Node>, m: Match, j: nat)
    requires j <= |kids|
    ensures |Select(kids[..j], m)| <= |Select(kids, m)|
    ensures Select(kids, m)[..|Select(kids[..j], m)|] == Select(kids[..j], m)
    decreases |kids|
  {
    if j == |kids| {
      assert kids[..j] == kids;
    } else {
      var init := kids[..|kids| - 1];
      SelectPrefix(init, m, j);
      assert init[..j] == kids[..j];
    }
  }

  /** A matching child sits in the selection at the number of matching children before it. */
  lemma SelectPosition(kids: seq<Node>, m: Match, k: nat)
    requires k < |kids| && Matches(kids[k], m)
    ensures Count(kids[..k], m) < |Select(kids, m)|
    ensures Select(kids, m)[Count(kids[..k], m)] == k
  {
    var upto := kids[..k + 1];
    assert upto[..k] == kids[..k];
    assert Select(upto, m) == Select(kids[..k], m) + [k];
    SelectCount(kids[..k], m);
    SelectPrefix(kids, m, k + 1);
  }

  /** The first position of `k` in `list`. */
  function IndexOf(list: seq<nat>, k: nat): (r: Option<nat>)
    ensures r.Some? ==> r.value < |list| && list[r.value] == k
    ensures r.Some? ==> forall j :: 0 <= j < r.value ==> list[j] != k
    ensures r.None? ==> k !in list
    decreases |list|
  {
    if |list| == 0 then None
    else if list[0] == k then Some(0)
    else match IndexOf(list[1..], k)
      case None => None
      case Some(i) => Some(i + 1)
  }

  /**
   * The loop shared by getNodeIndex and getTextNodeIndex: null when the
   * node is the only entry of the list, otherwise its 1-based position, and
   * a throw when it is missing. `name` is the tagName the message quotes.
   */
  function Position(list: seq<nat>, k: nat, name: string): Result<Option<nat>> {
    if |list| == 1 && list[0] == k then Ok(None)
    else match IndexOf(list, k)
      case Some(i) => Ok(Some(i + 1))
      case None => Err("couldn't find node in parent's list: " + name)
  }

  /**
   * The index of a matching child among its matching siblings: none when
   * it is the only one, otherwise one more than the number of matching
   * siblings before it.
   */
  lemma PositionOfMatch(kids: seq<Node>, m: Match, k: nat, name: string)
    requires k < |kids| && Matches(kids[k], m)
    ensures Position(Select(kids, m), k, name)
         == Ok(if Count(kids, m) == 1 then None else Some(Count(kids[..k], m) + 1))
  {
    var list := Select(kids, m);
    var c := Count(kids[..k], m);
    SelectPosition(kids, m, k);
    SelectCount(kids, m);
    if |list| != 1 {
      var i := IndexOf(list, k).value;
      assert i == c;
    }
  }

  /** getNodeIndex(node) */
  function NodeIndex(root: Node, p: Path): Result<Option<nat>>
    requires Valid(root, p)
  {
    var n := At(root, p);
    if !n.Element? || |p| == 0 then Ok(None)
    else Position(ChildNodesWithTagName(At(root, Parent(p)), n.tagName), Last(p), n.tagName)
  }

  /** getTextNodeIndex(node): reading the children of a null parent throws. */
  function TextNodeIndex(root: Node, p: Path): Result<Option<nat>>
    requires Valid(root, p)
  {
    if |p| == 0 then Err("Cannot read properties of null (reading 'firstChild')")
    else Position(ChildTextNodes(At(root, Parent(p))), Last(p), "undefined")
  }

  /**
   * An element with a parent is indexed by its document-order position
   * among the siblings with its tag name, and not at all when it is the
   * only one; the throw can only happen for an element without a tag name.
   */
  lemma NodeIndexSpec(root: Node, p: Path)
    requires Valid(root, p)
    ensures !At(root, p).Element? || |p| == 0 ==> NodeIndex(root, p) == Ok(None)
    ensures At(root, p).Element? && |p| > 0 ==>
      var sibs := Kids(At(root, Parent(p)));
      var m := SameTag(At(root, p).tagName);
      if At(root, p).tagName == "" then NodeIndex(root, p).Err?
      else NodeIndex(root, p) == Ok(if Count(sibs, m) == 1 then None else Some(Count(sibs[..Last(p)], m) + 1))
  {
    var n := At(root, p);
    if n.Element? && |p| > 0 {
      ParentAt(root, p);
      var sibs := Kids(At(root, Parent(p)));
      var m := SameTag(n.tagName);
      var list := ChildNodesWithTagName(At(root, Parent(p)), n.tagName);
      assert NodeIndex(root, p) == Position(list, Last(p), n.tagName);
      if n.tagName != "" {
        assert Matches(sibs[Last(p)], m);
        PositionOfMatch(sibs, m, Last(p), n.tagName);
      } else {
        SelectEmptyTag(sibs);
      }
    }
  }

  /**
   * A text node with a parent is indexed by its position among the text
   * siblings, and not at all when it is the only one; one without a parent
   * makes the call throw.
   */
  lemma TextNodeIndexSpec(root: Node, p: Path)
    requires Valid(root, p) && At(root, p).Text?
    ensures |p| == 0 ==> TextNodeIndex(root, p).Err?
    ensures |p| > 0 ==>
      var sibs := Kids(At(root, Parent(p)));
      TextNodeIndex(root, p) == Ok(if Count(sibs, AnyText) == 1 then None else Some(Count(sibs[..Last(p)], AnyText) + 1))
  {
    if |p| > 0 {
      ParentAt(root, p);
      var sibs := Kids(At(root, Parent(p)));
      assert TextNodeIndex(root, p) == Position(Select(sibs, AnyText), Last(p), "undefined");
      assert Matches(sibs[Last(p)], AnyText);
      PositionOfMatch(sibs, AnyText, Last(p), "undefined");
    }
  }

  /* ----------------------------------------------------------------------
   * The node path
   * ---------------------------------------------------------------------- */

  /** The node kinds the walk in getNodePath climbs through: elements and text. */
  predicate Walkable(n: Node) {
    n.Element? || n.Text?
  }

  /**
   * getNodePath(node): the walked nodes, outermost first. The walk climbs
   * from the target through element and text nodes, stopping after the
   * first element with an `id` or at the first node of another kind; a
   * missing parent (the root of a detached tree) makes it throw.
   */
  function NodePath(root: Node, p: Path): (r: Result<seq<Path>>)
    requires Valid(root, p)
    ensures r.Ok? ==> |r.value| <= |p| + 1
    ensures r.Ok? ==> forall i :: 0 <= i < |r.value| ==> r.value[i] == p[..|p| + 1 - |r.value| + i]
    ensures r.Ok? ==> forall i :: 0 <= i < |r.value| ==>
      Valid(root, r.value[i]) && Walkable(At(root, r.value[i])) && (i > 0 ==> !HasId(At(root, r.value[i])))
    ensures r.Ok? && |r.value| > 0 ==>
      || HasId(At(root, r.value[0]))
      || (|r.value[0]| > 0 && Valid(root, Parent(r.value[0])) && !Walkable(At(root, Parent(r.value[0]))))
    ensures r.Ok? ==> (|r.value| == 0 <==> !Walkable(At(root, p)))
    ensures r.Err? ==> Walkable(root)
    decreases |p|
  {
    var n := At(root, p);
    if !Walkable(n) then Ok([])
    else if HasId(n) then Ok([p])
    else if |p| == 0 then Err("Cannot read properties of null (reading 'nodeType')")
    else
      ParentAt(root, p);
      match NodePath(root, Parent(p))
      case Err(e) => Err(e)
      case Ok(up) => Ok(up + [p])
  }

  /** A tree hanging from a document never makes the walk throw. */
  lemma NodePathOfDocument(root: Node, p: Path)
    requires root.Document? && Valid(root, p)
    ensures NodePath(root, p).Ok?
  {
  }

  /* ----------------------------------------------------------------------
   * Location steps and the rendered path
   * ---------------------------------------------------------------------- */

  /** One location step: the id anchor, a tag name, or text(), with an optional index. */
  datatype Step = IdStep(id: string) | TagStep(tag: string, index: Option<nat>) | TextStep(index: Option<nat>)

  function Render(s: Step): string {
    match s
    case IdStep(v) => "/*[@id='" + v + "']"
    case TagStep(t, None) => t
    case TagStep(t, Some(k)) => t + "[" + NatText(k) + "]"
    case TextStep(None) => "text()"
    case TextStep(Some(k)) => "text()[" + NatText(k) + "]"
  }

  function RenderAll(steps: seq<Step>): (r: seq<string>)
    ensures |r| == |steps|
    ensures forall i :: 0 <= i < |steps| ==> r[i] == Render(steps[i])
  {
    seq(|steps|, i requires 0 <= i < |steps| => Render(steps[i]))
  }

  /**
   * The step one node of the path contributes (the body of the loop in
   * getXPath); `first` is `i == 0`. A node that is neither an element nor
   * text contributes none.
   */
  function StepFor(root: Node, q: Path, first: bool, lower: bool): Result<seq<Step>>
    requires Valid(root, q)
  {
    var n := At(root, q);
    if n.Element? then
      if first && HasId(n) then Ok([IdStep(IdOf(n).value)])
      else
        var tag := if lower then AsciiLower(n.tagName) else n.tagName;
        match NodeIndex(root, q)
        case Ok(ix) => Ok([TagStep(tag, ix)])
        case Err(e) => Err(e)
    else if n.Text? then
      match TextNodeIndex(root, q)
      case Ok(ix) => Ok([TextStep(ix)])
      case Err(e) => Err(e)
    else Ok([])
  }

  /**
   * What the step of a path node says about the node: only the first node,
   * and only when it has an id, is anchored; other elements give their tag
   * name (lower-cased for an HTML document) with their sibling index; text
   * nodes give text() with theirs.
   */
  predicate Describes(root: Node, q: Path, first: bool, lower: bool, s: Step)
    requires Valid(root, q)
  {
    var n := At(root, q);
    match s
    case IdStep(v) => first && n.Element? && IdOf(n) == Some(v)
    case TagStep(t, ix) =>
      && n.Element? && !(first && HasId(n))
      && t == (if lower then AsciiLower(n.tagName) else n.tagName)
      && NodeIndex(root, q) == Ok(ix)
    case TextStep(ix) => n.Text? && TextNodeIndex(root, q) == Ok(ix)
  }

  /** The loop of getXPath over the path; the first failing index aborts it. */
  function StepsFor(root: Node, nodes: seq<Path>, lower: bool): (r: Result<seq<Step>>)
    requires forall i :: 0 <= i < |nodes| ==> Valid(root, nodes[i])
    decreases |nodes|
  {
    if |nodes| == 0 then Ok([])
    else
      match StepsFor(root, nodes[..|nodes| - 1], lower)
      case Err(e) => Err(e)
      case Ok(init) =>
        match StepFor(root, nodes[|nodes| - 1], |nodes| == 1, lower)
        case Err(e) => Err(e)
        case Ok(last) => Ok(init + last)
  }

  /** An element or text node contributes exactly one step, and that step describes it. */
  lemma StepForDescribes(root: Node, q: Path, first: bool, lower: bool)
    requires Valid(root, q) && Walkable(At(root, q))
    requires StepFor(root, q, first, lower).Ok?
    ensures |StepFor(root, q, first, lower).value| == 1
    ensures Describes(root, q, first, lower, StepFor(root, q, first, lower).value[0])
  {
  }

  /** Over a path of element and text nodes the loop emits one describing step per node. */
  lemma {:induction false} StepsForDescribe(root: Node, nodes: seq<Path>, lower: bool)
    requires forall i :: 0 <= i < |nodes| ==> Valid(root, nodes[i]) && Walkable(At(root, nodes[i]))
    requires StepsFor(root, nodes, lower).Ok?
    ensures |StepsFor(root, nodes, lower).value| == |nodes|
    ensures forall i :: 0 <= i < |nodes| ==> Describes(root, nodes[i], i == 0, lower, StepsFor(root, nodes, lower).value[i])
    decreases |nodes|
  {
    if |nodes| > 0 {
      var n := |nodes| - 1;
      var init := nodes[..n];
      StepsForSnoc(root, nodes, lower);
      StepsForDescribe(root, init, lower);
      StepForDescribes(root, nodes[n], n == 0, lower);
      var a := StepsFor(root, init, lower).value;
      var b := StepFor(root, nodes[n], n == 0, lower).value;
      DescribeSnoc(root, nodes, lower, a, b);
    }
  }

  lemma DescribeSnoc(root: Node, nodes: seq<Path>, lower: bool, a: seq<Step>, b: seq<Step>)
    requires forall i :: 0 <= i < |nodes| ==> Valid(root, nodes[i])
    requires |nodes| > 0 && |a| == |nodes| - 1 && |b| == 1
    requires forall i :: 0 <= i < |a| ==> Describes(root, nodes[..|a|][i], i == 0, lower, a[i])
    requires Describes(root, nodes[|a|], |a| == 0, lower, b[0])
    ensures forall i :: 0 <= i < |nodes| ==> Describes(root, nodes[i], i == 0, lower, (a + b)[i])
  {
    forall i | 0 <= i < |nodes|
      ensures Describes(root, nodes[i], i == 0, lower, (a + b)[i])
    {
      if i < |a| {
        assert nodes[..|a|][i] == nodes[i];
      }
    }
  }

  /** One more node: the loop succeeds when it did on the shorter path and the new node's step does. */
  lemma StepsForSnoc(root: Node, nodes: seq<Path>, lower: bool)
    requires forall i :: 0 <= i < |nodes| ==> Valid(root, nodes[i])
    requires |nodes| > 0 && StepsFor(root, nodes, lower).Ok?
    ensures var init := nodes[..|nodes| - 1];
      && (forall i :: 0 <= i < |init| ==> Valid(root, init[i]))
      && StepsFor(root, init, lower).Ok?
      && StepFor(root, nodes[|nodes| - 1], |nodes| == 1, lower).Ok?
      && StepsFor(root, nodes, lower).value == StepsFor(root, init, lower).value + StepFor(root, nodes[|nodes| - 1], |nodes| == 1, lower).value
  {
  }

  /** The steps of the target's location path. */
  function LocationSteps(root: Node, p: Path, lower: bool): (r: Result<seq<Step>>)
    requires Valid(root, p)
    ensures r.Ok? ==> NodePath(root, p).Ok?
    ensures r.Ok? ==>
      var nodes := NodePath(root, p).value;
      && |r.value| == |nodes|
      && forall i :: 0 <= i < |nodes| ==> Describes(root, nodes[i], i == 0, lower, r.value[i])
  {
    match NodePath(root, p)
    case Err(e) => Err(e)
    case Ok(nodes) =>
      if StepsFor(root, nodes, lower).Ok? then StepsForDescribe(root, nodes, lower); StepsFor(root, nodes, lower)
      else StepsFor(root, nodes, lower)
  }

  /** getXPath(target): "/" followed by the steps joined with "/". */
  function GetXPath(root: Node, p: Path, isHtml: bool): (r: Result<string>)
    requires Valid(root, p)
    ensures r.Ok? <==> LocationSteps(root, p, isHtml).Ok?
    ensures r.Ok? ==> |r.value| >= 1 && r.value[0] == '/'
    ensures r.Ok? ==> r.value == "/" + Join("/", RenderAll(LocationSteps(root, p, isHtml).value))
  {
    match LocationSteps(root, p, isHtml)
    case Err(e) => Err(e)
    case Ok(steps) => Ok("/" + Join("/", RenderAll(steps)))
  }

  /* ----------------------------------------------------------------------
   * Properties of the rendered path
   * ---------------------------------------------------------------------- */

  lemma StepForOk(root: Node, q: Path, first: bool, lower: bool)
    requires root.Document? && WellFormed(root) && Valid(root, q)
    ensures StepFor(root, q, first, lower).Ok?
  {
    var n := At(root, q);
    if n.Element? {
      WellFormedAt(root, q);
      NodeIndexSpec(root, q);
    } else if n.Text? {
      TextNodeIndexSpec(root, q);
    }
  }

  lemma {:induction false} StepsForOk(root: Node, nodes: seq<Path>, lower: bool)
    requires root.Document? && WellFormed(root)
    requires forall i :: 0 <= i < |nodes| ==> Valid(root, nodes[i])
    ensures StepsFor(root, nodes, lower).Ok?
    decreases |nodes|
  {
    if |nodes| > 0 {
      StepsForOk(root, nodes[..|nodes| - 1], lower);
      StepForOk(root, nodes[|nodes| - 1], |nodes| == 1, lower);
    }
  }

  /** In a well-formed document getXPath never throws. */
  lemma GetXPathOk(root: Node, p: Path, isHtml: bool)
    requires root.Document? && WellFormed(root) && Valid(root, p)
    ensures GetXPath(root, p, isHtml).Ok?
  {
    NodePathOfDocument(root, p);
    StepsForOk(root, NodePath(root, p).value, isHtml);
  }

  lemma JoinHead(sep: string, parts: seq<string>)
    requires |parts| >= 1
    ensures |parts[0]| <= |Join(sep, parts)|
    ensures Join(sep, parts)[..|parts[0]|] == parts[0]
  {
  }

  lemma {:induction false} JoinNonEmpty(sep: string, parts: seq<string>)
    requires |parts| >= 1 && |parts[0]| > 0
    ensures |Join(sep, parts)| > 0
  {
    JoinHead(sep, parts);
  }

  /**
   * When the first node of the path is an element with an id `v`, the
   * result begins with two slashes and then the anchor `*[@id='v']`: the
   * anchor step starts with its own slash and getXPath puts another in
   * front of it.
   */
  lemma AnchoredXPath(root: Node, p: Path, isHtml: bool)
    requires Valid(root, p)
    requires GetXPath(root, p, isHtml).Ok?
    requires |NodePath(root, p).value| > 0
    requires HasId(At(root, NodePath(root, p).value[0]))
    ensures var anchor := "//*[@id='" + IdOf(At(root, NodePath(root, p).value[0])).value + "']";
      && |anchor| <= |GetXPath(root, p, isHtml).value|
      && GetXPath(root, p, isHtml).value[..|anchor|] == anchor
  {
    var v := IdOf(At(root, NodePath(root, p).value[0])).value;
    var steps := LocationSteps(root, p, isHtml).value;
    FirstStepAnchored(root, p, isHtml);
    var parts := RenderAll(steps);
    var j := Join("/", parts);
    JoinHead("/", parts);
    PrefixOfConcat("/", parts[0], j);
    AnchorText(v);
  }

  lemma FirstStepAnchored(root: Node, p: Path, isHtml: bool)
    requires Valid(root, p)
    requires LocationSteps(root, p, isHtml).Ok?
    requires |NodePath(root, p).value| > 0
    requires HasId(At(root, NodePath(root, p).value[0]))
    ensures |LocationSteps(root, p, isHtml).value| > 0
    ensures LocationSteps(root, p, isHtml).value[0] == IdStep(IdOf(At(root, NodePath(root, p).value[0])).value)
  {
    var nodes := NodePath(root, p).value;
    assert Describes(root, nodes[0], true, isHtml, LocationSteps(root, p, isHtml).value[0]);
  }

  lemma AnchorText(v: string)
    ensures "/" + Render(IdStep(v)) == "//*[@id='" + v + "']"
  {
  }

  lemma PrefixOfConcat(a: string, b: string, c: string)
    requires |b| <= |c| && c[..|b|] == b
    ensures |a + b| <= |a + c| && (a + c)[..|a + b|] == a + b
  {
  }

  /** Only the first step can be an id anchor. */
  lemma OnlyFirstStepAnchored(root: Node, p: Path, isHtml: bool, i: nat)
    requires Valid(root, p)
    requires LocationSteps(root, p, isHtml).Ok?
    requires 0 < i < |LocationSteps(root, p, isHtml).value|
    ensures !LocationSteps(root, p, isHtml).value[i].IdStep?
  {
    var nodes := NodePath(root, p).value;
    assert Describes(root, nodes[i], i == 0, isHtml, LocationSteps(root, p, isHtml).value[i]);
  }

  /** A target that itself has an id is named by the anchor alone. */
  lemma XPathOfIdTarget(root: Node, p: Path, isHtml: bool)
    requires Valid(root, p) && HasId(At(root, p))
    ensures GetXPath(root, p, isHtml) == Ok("//*[@id='" + IdOf(At(root, p)).value + "']")
  {
    var v := IdOf(At(root, p)).value;
    var anchor := "/*[@id='" + v + "']";
    assert NodePath(root, p) == Ok([p]);
    assert StepFor(root, p, true, isHtml) == Ok([IdStep(v)]);
    assert [p][..0] == [];
    assert StepsFor(root, [p], isHtml) == Ok([] + [IdStep(v)]);
    assert [] + [IdStep(v)] == [IdStep(v)];
    assert LocationSteps(root, p, isHtml) == Ok([IdStep(v)]);
    assert RenderAll([IdStep(v)]) == [anchor];
    assert Join("/", [anchor]) == anchor;
    assert "/" + anchor == "//*[@id='" + v + "']";
  }

  /**
   * In a well-formed tree the result is exactly "/" when the walk found no
   * node (the target is the document or another non-element, non-text
   * node), and longer otherwise.
   */
  lemma XPathEmptyPath(root: Node, p: Path, isHtml: bool)
    requires WellFormed(root) && Valid(root, p)
    requires GetXPath(root, p, isHtml).Ok?
    ensures GetXPath(root, p, isHtml).value == "/" <==> |NodePath(root, p).value| == 0
  {
    var nodes := NodePath(root, p).value;
    var steps := LocationSteps(root, p, isHtml).value;
    if |nodes| > 0 {
      assert Describes(root, nodes[0], true, isHtml, steps[0]);
      WellFormedAt(root, nodes[0]);
      var parts := RenderAll(steps);
      assert |parts[0]| > 0 by {
        match steps[0]
        case IdStep(_) =>
        case TextStep(_) =>
        case TagStep(t, ix) =>
          assert |t| == |At(root, nodes[0]).tagName|;
      }
      JoinNonEmpty("/", parts);
    }
  }

  /** A document whose body holds a div, a span and another div. */
  function SiblingDoc(): Node {
    var div := Element("div", [], []);
    Document([Element("html", [], [Element("body", [], [div, Element("span", [], []), div])])])
  }

  lemma SiblingNodes()
    ensures Valid(SiblingDoc(), [0]) && At(SiblingDoc(), [0]) == SiblingDoc().children[0]
    ensures Valid(SiblingDoc(), [0, 0]) && At(SiblingDoc(), [0, 0]) == SiblingDoc().children[0].children[0]
    ensures Valid(SiblingDoc(), [0, 0, 1]) && At(SiblingDoc(), [0, 0, 1]) == Element("span", [], [])
    ensures Valid(SiblingDoc(), [0, 0, 2]) && At(SiblingDoc(), [0, 0, 2]) == Element("div", [], [])
  {
    assert Parent([0, 0, 2]) == [0, 0] && Parent([0, 0, 1]) == [0, 0];
    assert Parent([0, 0]) == [0] && Parent([0]) == [];
  }

  lemma SiblingCounts(div: Node, span: Node)
    requires div == Element("div", [], []) && span == Element("span", [], [])
    ensures Count([div, span, div], SameTag("div")) == 2
    ensures Count([div, span, div], SameTag("span")) == 1
    ensures Count([div, span], SameTag("div")) == 1
  {
    var kids := [div, span, div];
    assert kids[1..] == [span, div] && kids[1..][1..] == [div] && [div][1..] == [];
    assert [div, span][1..] == [span] && [span][1..] == [];
    var d, t := SameTag("div"), SameTag("span");
    assert Matches(div, d) && !Matches(span, d) && Matches(span, t) && !Matches(div, t);
    assert Count([div], d) == 1 + Count([], d) == 1;
    assert Count([div], t) == Count([], t) == 0;
    assert Count([span], d) == Count([], d) == 0;
    assert Count([span, div], d) == Count([div], d) == 1;
    assert Count([span, div], t) == 1 + Count([div], t) == 1;
    assert Count(kids, d) == 1 + Count([span, div], d);
    assert Count(kids, t) == Count([span, div], t);
    assert Count([div, span], d) == 1 + Count([span], d);
  }

  /** Among [div, span, div] the second div is div[2] and the span has no index. */
  lemma SiblingIndices()
    ensures Valid(SiblingDoc(), [0, 0, 2]) && Valid(SiblingDoc(), [0, 0, 1])
    ensures NodeIndex(SiblingDoc(), [0, 0, 2]) == Ok(Some(2))
    ensures NodeIndex(SiblingDoc(), [0, 0, 1]) == Ok(None)
  {
    var doc := SiblingDoc();
    var div := Element("div", [], []);
    var span := Element("span", [], []);
    SiblingNodes();
    SiblingCounts(div, span);
    assert Kids(At(doc, [0, 0])) == [div, span, div];
    assert [div, span, div][..2] == [div, span];
    NodeIndexSpec(doc, [0, 0, 2]);
    NodeIndexSpec(doc, [0, 0, 1]);
  }

  /** html and body are the only children with their tag, so they have no index. */
  lemma SiblingOuterIndices()
    ensures Valid(SiblingDoc(), [0]) && Valid(SiblingDoc(), [0, 0])
    ensures NodeIndex(SiblingDoc(), [0]) == Ok(None)
    ensures NodeIndex(SiblingDoc(), [0, 0]) == Ok(None)
  {
    var doc := SiblingDoc();
    SiblingNodes();
    var html := At(doc, [0]);
    var body := At(doc, [0, 0]);
    assert [html][1..] == [] && [body][1..] == [];
    assert Count([html], SameTag("html")) == 1;
    assert Count([body], SameTag("body")) == 1;
    NodeIndexSpec(doc, [0]);
    NodeIndexSpec(doc, [0, 0]);
  }

  lemma SiblingNodePath()
    ensures Valid(SiblingDoc(), [0, 0, 2])
    ensures NodePath(SiblingDoc(), [0, 0, 2]) == Ok([[0], [0, 0], [0, 0, 2]])
  {
    var doc := SiblingDoc();
    SiblingNodes();
    assert Parent([0, 0, 2]) == [0, 0] && Parent([0, 0]) == [0];
    assert !HasId(At(doc, [0])) && !HasId(At(doc, [0, 0])) && !HasId(At(doc, [0, 0, 2]));
    assert Parent([0]) == [] && !Walkable(At(doc, []));
    assert NodePath(doc, []) == Ok([]);
    assert NodePath(doc, [0]) == Ok([] + [[0]]);
    assert [] + [[0]] == [[0]];
    assert NodePath(doc, [0, 0]) == Ok([[0]] + [[0, 0]]);
    assert [[0]] + [[0, 0]] == [[0], [0, 0]];
    assert NodePath(doc, [0, 0, 2]) == Ok([[0], [0, 0]] + [[0, 0, 2]]);
    assert [[0], [0, 0]] + [[0, 0, 2]] == [[0], [0, 0], [0, 0, 2]];
  }

  /** An element that is not anchored contributes its tag step. */
  lemma StepForTag(root: Node, q: Path, first: bool, lower: bool, tag: string, ix: Option<nat>)
    requires Valid(root, q) && At(root, q).Element? && !(first && HasId(At(root, q)))
    requires tag == (if lower then AsciiLower(At(root, q).tagName) else At(root, q).tagName)
    requires NodeIndex(root, q) == Ok(ix)
    ensures StepFor(root, q, first, lower) == Ok([TagStep(tag, ix)])
  {
  }

  lemma SiblingStepHtml()
    ensures Valid(SiblingDoc(), [0])
    ensures StepFor(SiblingDoc(), [0], true, true) == Ok([TagStep("html", None)])
  {
    SiblingNodes();
    SiblingOuterIndices();
    var n := At(SiblingDoc(), [0]);
    assert n == Element("html", n.attrs, n.children) && n.attrs == [];
    SiblingTagsLower();
    StepForTag(SiblingDoc(), [0], true, true, "html", None);
  }

  lemma SiblingStepBody()
    ensures Valid(SiblingDoc(), [0, 0])
    ensures StepFor(SiblingDoc(), [0, 0], false, true) == Ok([TagStep("body", None)])
  {
    SiblingNodes();
    SiblingOuterIndices();
    var n := At(SiblingDoc(), [0, 0]);
    assert n == Element("body", n.attrs, n.children) && n.attrs == [];
    SiblingTagsLower();
    StepForTag(SiblingDoc(), [0, 0], false, true, "body", None);
  }

  lemma SiblingStepDiv()
    ensures Valid(SiblingDoc(), [0, 0, 2])
    ensures StepFor(SiblingDoc(), [0, 0, 2], false, true) == Ok([TagStep("div", Some(2))])
  {
    var doc, q := SiblingDoc(), [0, 0, 2];
    SiblingDivFacts(doc, q);
    StepForTag(doc, q, false, true, "div", Some(2));
  }

  lemma SiblingDivFacts(doc: Node, q: Path)
    requires doc == SiblingDoc() && q == [0, 0, 2]
    ensures Valid(doc, q) && At(doc, q).Element? && !HasId(At(doc, q))
    ensures AsciiLower(At(doc, q).tagName) == "div"
    ensures NodeIndex(doc, q) == Ok(Some(2))
  {
    SiblingNodes();
    SiblingIndices();
    SiblingTagsLower();
  }

  /** The example's tag names are already lower case. */
  lemma SiblingTagsLower()
    ensures AsciiLower("html") == "html" && AsciiLower("body") == "body" && AsciiLower("div") == "div"
  {
    AsciiLowerIdempotent("html");
    AsciiLowerIdempotent("body");
    AsciiLowerIdempotent("div");
  }

  lemma SiblingStepsFor1()
    ensures Valid(SiblingDoc(), [0])
    ensures StepsFor(SiblingDoc(), [[0]], true) == Ok([TagStep("html", None)])
  {
    SiblingStepHtml();
    assert [[0]][..0] == [];
    assert StepsFor(SiblingDoc(), [], true) == Ok([]);
    assert [] + [TagStep("html", None)] == [TagStep("html", None)];
  }

  lemma SiblingStepsFor2()
    ensures Valid(SiblingDoc(), [0]) && Valid(SiblingDoc(), [0, 0])
    ensures StepsFor(SiblingDoc(), [[0], [0, 0]], true) == Ok([TagStep("html", None), TagStep("body", None)])
  {
    SiblingStepsFor1();
    SiblingStepBody();
    var nodes := [[0], [0, 0]];
    assert nodes[..1] == [[0]] && nodes[1] == [0, 0];
    assert [TagStep("html", None)] + [TagStep("body", None)] == [TagStep("html", None), TagStep("body", None)];
  }

  lemma SiblingStepsFor3()
    ensures Valid(SiblingDoc(), [0]) && Valid(SiblingDoc(), [0, 0]) && Valid(SiblingDoc(), [0, 0, 2])
    ensures StepsFor(SiblingDoc(), [[0], [0, 0], [0, 0, 2]], true)
         == Ok([TagStep("html", None), TagStep("body", None), TagStep("div", Some(2))])
  {
    SiblingStepsFor2();
    SiblingStepDiv();
    var nodes := [[0], [0, 0], [0, 0, 2]];
    assert nodes[..2] == [[0], [0, 0]] && nodes[2] == [0, 0, 2];
    assert [TagStep("html", None), TagStep("body", None)] + [TagStep("div", Some(2))]
        == [TagStep("html", None), TagStep("body", None), TagStep("div", Some(2))];
  }

  lemma SiblingSteps()
    ensures Valid(SiblingDoc(), [0, 0, 2])
    ensures LocationSteps(SiblingDoc(), [0, 0, 2], true)
         == Ok([TagStep("html", None), TagStep("body", None), TagStep("div", Some(2))])
  {
    SiblingStepsFor3();
    SiblingNodePath();
  }

  /** The location path of the second div. */
  lemma SiblingXPath()
    ensures Valid(SiblingDoc(), [0, 0, 2])
    ensures GetXPath(SiblingDoc(), [0, 0, 2], true) == Ok("/html/body/div[2]")
  {
    var steps := [TagStep("html", None), TagStep("body", None), TagStep("div", Some(2))];
    SiblingSteps();
    RenderedSteps(SiblingDoc(), [0, 0, 2], true, steps);
    SiblingText();
  }

  lemma SiblingText()
    ensures "/" + Join("/", RenderAll([TagStep("html", None), TagStep("body", None), TagStep("div", Some(2))])) == "/html/body/div[2]"
  {
    SiblingRender();
    SiblingJoin();
  }

  lemma SiblingRender()
    ensures RenderAll([TagStep("html", None), TagStep("body", None), TagStep("div", Some(2))]) == ["html", "body", "div[2]"]
  {
    assert NatText(2) == [DigitChar(2)] == "2";
    assert Render(TagStep("div", Some(2))) == "div[2]";
  }

  lemma SiblingJoin()
    ensures Join("/", ["html", "body", "div[2]"]) == "html/body/div[2]"
  {
    var parts := ["html", "body", "div[2]"];
    assert parts[1..] == ["body", "div[2]"] && parts[1..][1..] == ["div[2]"];
  }

  lemma RenderedSteps(root: Node, p: Path, isHtml: bool, steps: seq<Step>)
    requires Valid(root, p) && LocationSteps(root, p, isHtml) == Ok(steps)
    ensures GetXPath(root, p, isHtml) == Ok("/" + Join("/", RenderAll(steps)))
  {
  }
}
